=== FILE: README.md ===
# DMIT report derivation — a Dafny model

This project models the report-derivation rules of a DMIT (dermatoglyphics multiple
intelligence test) web application. These rules are the pure functions that turn
stored analysis scores into what a report shows:

- **Report page (`report.php`).** It rebuilds and ranks the multiple-intelligence
  (MI) distribution and decodes the DISC profile with its defaults. It buckets DISC
  scores and the fingerprint metrics (TFRC, ATD angle, learning sensibility) into
  three tiers. It looks up descriptions and trait lists, each with a fallback. It
  composes the Holland-code sentence, the development suggestions (at most five),
  the educational guidance and the career-path guidance.
- **First analyser (`analysis.py`).** It classifies fingerprint patterns and
  computes the composite features. It scores learning sensibility, recommends
  careers by Holland letter, and builds the SWOT lists and brain dominance.
- **Second analyser (`full_model_based_analysis.py`).** It does the same with
  different thresholds, and adds the OCEAN profile, careers from three sources,
  and the top intelligences and DISC style chosen when the report is built.

Modules:

| file | module | contents |
|---|---|---|
| wrappers.dfy | Wrappers | `Option` for PHP null, failed JSON decoding and Python errors |
| text.dfy | Text | ASCII lower-casing, `implode`, substring test |
| numbers.dfy | Numbers | sum, mean, min, max, first arg-max of reals |
| results.dfy | Results | the intelligence labels and stored keys, the SWOT record |
| ranking.dfy | Ranking | key/score entries, the stable descending sort and its reference |
| buckets.dfy | Buckets | three-tier step functions, PHP null comparison |
| tables.dfy | Tables | the report's lookup tables and DISC texts |
| holland.dfy | Holland | the Holland sentence as written and as intended |
| derived.dfy | Derived | MI ranking, DISC profile, suggestions, guidance sentences |
| fingerprint.dfy | Fingerprint | fingerprint features and composite metrics |
| analysis.dfy | Analysis | the first analyser's rules |
| full_model.dfy | FullModel | the second analyser's rules |

PHP's `arsort` is stable from PHP 8.0, and Python's `sorted(..., reverse=True)` is
stable too. Both are modelled by one function, `Ranking.SortDesc`. It is proved
stable (`Ranking.SortDescStable`). It is also proved equal to an independent
reference that repeatedly takes the first entry of highest score
(`Ranking.SortDescIsSelectionOrder`).

Some inputs are modelled abstractly:

- **JSON decoding** is an `Option`. `None` stands for PHP null: a NULL column, text
  that does not decode, or a decoded value that is not an array. All three read
  alike in every later array access.
- **Scores** are `real`. Comparisons are exact.
- **Rendering and rounding.** Python's float rendering (`f"{score}"`) and
  `round(x, 1)` are function parameters.

Two places where what the code computes differs from what it evidently aims at:

- **Holland description.** The comment "For multi-letter codes (like "RIS", "AES",
  etc.)" and the per-letter `substr` lookups (report.php:741-754) build a sentence
  from each letter's description. But the table is keyed by whole words
  ('Realistic', …), so no letter is ever found. Every code of two or more
  characters gets one constant sentence, and every shorter code gets the
  fallback. The model follows the code and logs this under Findings.
- **Educational guidance.** The guidance re-decodes the stored `mi_distribution`
  field (report.php:807); the distribution rebuilt from the scalar columns never
  reaches it. Its switch matches only the eight lower-case keys. The first
  analyser stores exactly those keys (analysis.py:248-257), so its reports name a
  field for each of the two best intelligences. The second analyser stores the
  capitalised labels 'Logical', 'Linguistic', … (full_model_based_analysis.py:276-277,
  287), so its reports name no field of study.

## Model

| member | source | states |
|---|---|---|
| Buckets.DiscLevel | report.php:614 | a DISC score is low below 40, medium from 40 up to 70, high from 70, for every letter alike |
| Buckets.DiscLevelMonotone | report.php:614 | a higher DISC score never gets a lower level |
| Buckets.DiscLevelBoundaries | report.php:614 | 39 is low, 40 medium, 69 medium, 70 high |
| Buckets.DiscLevelOf | report.php:614 | a missing DISC score (PHP null) compares below 40 and reads as low |
| Buckets.Step | report.php:713-729 | a three-tier step with strict-less thresholds: low below lo, medium from lo to below hi, high from hi |
| Buckets.StepMonotone | report.php:713-729 | a step never goes back to a lower tier as its input grows |
| Buckets.TfrcInterpretation | report.php:713-717 | each of the three TFRC texts is returned exactly on its range: below 100, 100 to below 150, 150 and above |
| Buckets.AtdAngleInterpretation | report.php:719-723 | each ATD text exactly on its range: below 35, 35 to below 45, 45 and above |
| Buckets.LearningSensibilityInterpretation | report.php:725-729 | each learning-sensibility text exactly on its range: below 3, 3 to below 7, 7 and above |
| Buckets.InterpretationsAreSteps | report.php:713-729 | the three interpretations are the steps at 100/150, 35/45 and 3/7 |
| Buckets.InterpretationsMonotone | report.php:713-729 | each interpretation is monotone in its input |
| Tables.PersonalityDescription | report.php:528-541 | known types get their description; any other type gets the fixed fallback, never an empty text |
| Tables.PersonalityTraits | report.php:543-588 | a known type has three non-empty traits; any other has the one fallback trait |
| Tables.DiscDescription | report.php:590-616 | each letter's low, medium or high text is returned exactly on its score range |
| Tables.DiscTextDistinct | report.php:590-612 | a letter's three texts differ, so the text determines the level |
| Tables.LearningStyleDescription | report.php:618-627 | known styles get their description; others get the fallback, never empty |
| Tables.LearningStrategies | report.php:629-658 | always three strategies; the fallback list exactly for unknown styles |
| Tables.BrainDominanceDescription | report.php:660-668 | known dominances get their description; others get the fallback, never empty |
| Tables.BrainDominanceTraits | report.php:670-696 | five non-empty traits for a known dominance; one fallback trait otherwise |
| Tables.MiDescription | report.php:698-711 | known intelligences get their description; others get the fallback, never empty |
| Tables.MiDescriptionShortNames | report.php:698-711 | the short and lower-case keys the page also produces (Logical, Bodily, Naturalist, linguistic) all read as the fallback |
| Holland.CodeDescription | report.php:731-765 | as written: every code of two or more characters gives the one "combination of areas … other areas." sentence; shorter codes give the unique-combination fallback |
| Holland.NoSecondaryWords | report.php:748-754 | no single letter is a key of the word-keyed table, so the secondary list is always empty |
| Holland.PrimaryFallbackLower | report.php:744 | the primary fallback is unchanged by lower-casing |
| Holland.WordKeyedTableMissesLetters | report.php:731-765 | for "RIA" the as-written sentence is the constant one and differs from the intended one |
| Holland.IntendedCodeDescription | report.php:731-765 | corrected: a single known letter gives its description; an unknown short code gives the fallback |
| Holland.IntendedComposition | report.php:742-761 | corrected: a code of known letters gives "Your primary interest is" + the first description lower-cased + the others, lower-cased and comma-joined |
| Holland.SecondaryOfLetters | report.php:748-754 | corrected: the secondary list holds the lower-cased description of every following letter, in order |
| Holland.IntendedRIA | report.php:742-761 | corrected: the composed sentence for "RIA" |
| Derived.DefaultDistribution | report.php:35-46 | the rebuilt distribution has the eight fixed keys in fixed order, each the column's value or 50 |
| Derived.MiDistribution | report.php:31-46 | the decoded distribution is used unless it is empty or not an array, in which case the rebuilt one is used |
| Derived.RankIntelligences | report.php:49-57 | primary is the first key of highest score; secondary is the first key of highest score among the rest, or "Unknown" for a single entry |
| Derived.RankDefaultsAllFifty | report.php:35-57 | with every column NULL the ranking keeps the fixed order: Linguistic, Logical |
| Derived.RankTiesKeepOrder | report.php:49-54 | equal scores keep their order: Linguistic 70, Logical 70, Spatial 50 ranks Linguistic then Logical |
| Derived.DiscProfile | report.php:29 | the 50/50/50/50 default applies to a NULL column only; undecodable text gives an empty profile |
| Derived.DiscScore | report.php:189-213 | a letter has a score exactly when the profile has its key |
| Derived.DiscDescriptionOf | report.php:189-213 | a present score is described by its level; a missing one reads as the low text |
| Derived.DiscDefaultsOnlyForNull | report.php:29 | a NULL column reads medium for every letter, but stored "{}" reads low for every letter |
| Derived.PersonalitySuggestions | report.php:771-776 | the communication suggestion exactly for Linguistic or Interpersonal, the analytical one exactly for Logical-Mathematical or Spatial, nothing for any other type |
| Derived.DiscSuggestions | report.php:779-785 | assertiveness exactly when D < 40 (a missing D counts as below), adaptability exactly when S > 70; one item per rule that holds, assertiveness first |
| Derived.WeaknessSuggestions | report.php:788-791 | one templated suggestion per SWOT weakness, in order |
| Derived.LearningSuggestions | report.php:794-799 | the auditory suggestion exactly for "Visual", the visual one exactly for "Auditory", nothing for any other style |
| Derived.DevelopmentSuggestions | report.php:767-802 | the result is the first min(5, n) of the fixed-order candidate list |
| Derived.LearningSuggestionStarved | report.php:767-802 | with five or more earlier suggestions the learning-style one is dropped; otherwise it comes last |
| Derived.MissingDominanceSuggestsAssertiveness | report.php:779-782 | a NULL DISC field or one without D still yields the assertiveness suggestion, right after the personality one |
| Derived.SuggestionCapExample | report.php:767-802 | Linguistic, D 30, S 80, four weaknesses, Visual: exactly five suggestions; the third and fourth weaknesses and the learning-style suggestion are cut |
| Derived.MatchedFields | report.php:813-841 | no more fields than keys; every key of the table contributes its field, and every field comes from a key of the table |
| Derived.JoinFields | report.php:844-849 | two fields join as "a and b"; one stands alone; none prints as nothing |
| Derived.StyleClause | report.php:854-869 | the closing clause for an exact style match, the generic clause otherwise |
| Derived.EducationalGuidance | report.php:804-872 | no sentence when the raw MI field is null; otherwise the fixed opening, at most two fields from the top two keys, and the style sentence |
| Derived.CapitalisedKeysContributeNothing | report.php:807-841 | a distribution stored under the second analyser's capitalised labels names no field of study, however it ranks |
| Derived.StoredKeysContributeFields | report.php:807-841 | a distribution stored under the first analyser's lower-case keys names a field for each of its two best intelligences |
| Derived.OneOfTwoKeysKnown | report.php:813-841 | when exactly one of the two best keys is known, the matched fields are that key's field alone |
| Derived.GuidanceOfTwoKnownKeys | report.php:807-849 | two known top keys give their two fields, best first, joined by "and" |
| Derived.AppliedClauses | report.php:881-891 | at most as many clauses as rules |
| Derived.CareerPathGuidance | report.php:874-896 | the fixed opening naming the code, then the clauses of the rules that apply in I, A, S order, then the fixed closing |
| Derived.ChainOfThree | report.php:881-891 | three conditional appends equal the opening plus the clauses of the applying rules |
| Derived.SpatialIASGuidance | report.php:881-891 | a Spatial personality with code "IAS" gets the investigative and artistic clauses, not the social one |
| Ranking.SortDesc | report.php:50 | the stable descending sort is a permutation ordered by decreasing score |
| Ranking.SortDescStable | report.php:50 | entries of equal score keep their relative order |
| Ranking.SortDescIsSelectionOrder | full_model_based_analysis.py:217 | the sort equals repeated selection of the first entry of highest score |
| Ranking.SortDescFirst | report.php:50-52 | the first sorted entry is the first entry of highest score |
| Ranking.SortDescSecond | report.php:50-53 | the second sorted entry is the first entry of highest score once the first is removed |
| Ranking.LeadingTwo | analysis.py:174-176 | the first two sorted entries are the first entry of highest score and the runner-up, which scores no higher |
| Ranking.ArgMax | full_model_based_analysis.py:279 | the first position of highest score |
| Ranking.TopKeys | report.php:809 | the keys of the first n entries, as many as exist |
| Ranking.Zip | analysis.py:174-176 | pairs labels with scores up to the shorter list |
| Text.ToLower | report.php:744 | lower-casing keeps the length and changes only upper-case letters |
| Text.Implode | report.php:846 | joining no parts gives "", one part gives it unchanged |
| Text.Substring | full_model_based_analysis.py:95 | the substring test holds exactly when the needle occurs |
| Fingerprint.TotalRidgeCount | analysis.py:77-80 | the total is at least each print's ridge count |
| Fingerprint.TotalRidgeCountAppend | full_model_based_analysis.py:92 | the total adds over any split of the prints |
| Fingerprint.CountPattern | analysis.py:88-92 | a count is at most the number of prints and zero exactly when no print has that type |
| Fingerprint.CountsPartition | full_model_based_analysis.py:97-101 | loops, whorls, arches and unknown types together count every print once |
| Fingerprint.PatternDistribution | analysis.py:88-92 | the three counts never exceed the number of prints and equal it when every type is known |
| Fingerprint.AtdAngle | analysis.py:82-86 | 45 without palm angles; otherwise a value between the smallest and largest angle |
| Numbers.MeanBetween | full_model_based_analysis.py:96 | a mean lies within any bounds of its values |
| Numbers.MaxOf | analysis.py:163 | the largest value: no value exceeds it and some value equals it |
| Numbers.MinOf | analysis.py:182 | the smallest value: no value is below it and some value equals it |
| Numbers.FirstMaxIndex | full_model_based_analysis.py:279 | numpy's argmax: a largest value, with every earlier value strictly smaller |
| Analysis.LegacyPatternType | analysis.py:58-62 | whorl exactly above 0.7, arch exactly below 0.3, loop exactly from 0.3 to 0.7 |
| Analysis.Lookup | analysis.py:83 | a found feature has the requested name; nothing is found exactly when no print has it |
| Analysis.PalmAngles | analysis.py:82-85 | at most two angles, none exactly when neither palm is present |
| Analysis.CompositeFeatures | analysis.py:75-98 | TFRC is the ridge total; ATD is 45 without palms, else within the palm angles; the counts cover every classified print |
| Analysis.AtdAdjustment | analysis.py:276-279 | +2 exactly below 35, -1 exactly above 45, 0 from 35 to 45 |
| Analysis.PatternAdjustment | analysis.py:282-285 | +2 exactly for more than five whorls, -1 exactly for more than three arches, independently |
| Analysis.LearningSensibility | analysis.py:272-287 | the score lies in [1, 10], in fact in [3, 9], and equals 5 plus both adjustments (the clamp never applies) |
| Analysis.LearningSensibilityMonotone | analysis.py:272-287 | the score never rises with the ATD angle or arch count and never falls with the whorl count |
| Analysis.CareersFor | analysis.py:291-301 | three careers for each of R, I, A, S, E, C; none for any other letter |
| Analysis.CareerRecommendations | analysis.py:289-304 | an error exactly for codes shorter than three; otherwise the careers of letters 0, 1 and 2 |
| Analysis.CareerRecommendationsUseThreeLetters | analysis.py:300-304 | only the first three letters matter |
| Analysis.SelectMember | analysis.py:163-190 | among distinct texts, a text is listed exactly when its condition holds |
| Analysis.DiscStrengths | analysis.py:163-171 | at most four DISC strengths |
| Analysis.DiscWeaknesses | analysis.py:182-190 | at most four DISC weaknesses |
| Analysis.DiscExtremesListed | analysis.py:163-190 | a DISC strength is listed exactly for scores equal to the maximum, a weakness exactly for scores equal to the minimum |
| Analysis.EqualDiscListsAll | analysis.py:163-190 | four equal scores list all four strengths and all four weaknesses |
| Analysis.FourDiscScoresListSomething | analysis.py:163-190 | with four scores at least one strength and one weakness come from DISC |
| Analysis.StrongIntelligences | analysis.py:177-179 | every listed intelligence scoring above 70 gives its strength, and every strength comes from one; none exactly when no score exceeds 70 |
| Analysis.TopStrengths | analysis.py:174-179 | from the two best-ranked entries of any list: the first strength names the first entry of highest score and exists exactly when some entry exceeds 70; a second names the runner-up and exists exactly when the runner-up exceeds 70 |
| Analysis.MiStrengths | analysis.py:174-179 | the strength of the best intelligence when it exceeds 70, then that of the runner-up when it exceeds 70 too |
| Analysis.StyleItems | analysis.py:200-210 | one item per rule that holds: the visual text exactly for "Visual", the auditory text exactly for "Auditory", the leadership text exactly when the leadership style contains "Transformational"; the learning-style item first, the leadership item last, nothing else |
| Analysis.StrengthItems | analysis.py:162-210 | the DISC and MI strengths come first; after them the visual strength appears exactly for "Visual", the listening strength exactly for "Auditory", the leadership strength exactly for a leadership style containing "Transformational"; one item per rule that holds, the learning-style item first and the leadership item last, nothing else |
| Analysis.WeaknessItems | analysis.py:181-210 | the DISC weaknesses come first; after them the audio-only weakness appears exactly for "Visual", the visual-heavy weakness exactly for "Auditory", the practical-details weakness exactly for a "Transformational" leadership style; one item per rule that holds, the learning-style item first and the leadership item last, nothing else |
| Analysis.Opportunities | analysis.py:193-218 | team projects exactly for 'E', research exactly for 'I', the fallback exactly for neither; one item per letter present, the 'E' item first, nothing else |
| Analysis.Threats | analysis.py:193-220 | isolation exactly for 'E', group work exactly for 'I', the fallback exactly for neither; one item per letter present, the 'E' item first, nothing else |
| Analysis.SwotAnalysis | analysis.py:146-222 | an error exactly for fewer than four DISC scores; otherwise the strength and weakness items, each replaced by its fixed fallback text when empty, and the opportunities and threats of the personality |
| Analysis.BrainDominance | analysis.py:238 | "Left" exactly when D + C exceeds I + S, otherwise "Right"; fewer than four scores is an error |
| Analysis.BrainDominanceMirror | analysis.py:238 | exchanging D with I and S with C turns Left into Right |
| FullModel.PatternType | full_model_based_analysis.py:76 | whorl exactly above 0.75, arch exactly below 0.25, loop in between |
| FullModel.Subtype | full_model_based_analysis.py:77 | Plain for whorls, Tented for arches, for loops Radial exactly for positive orientation and Ulnar otherwise |
| FullModel.PalmAngles | full_model_based_analysis.py:95 | no angle exactly when no key contains "palm" |
| FullModel.CompositeOf | full_model_based_analysis.py:91-110 | TFRC is the ridge total; ATD is 45 without palms, else within the palm angles; the counts add up to the number of classified prints |
| FullModel.OceanTierOf | full_model_based_analysis.py:126-135 | each of the five tiers exactly on its range: >75, >60, >=40, >=25, else |
| FullModel.OceanTierMonotone | full_model_based_analysis.py:126-135 | a higher score never gets a lower tier |
| FullModel.OceanProfile | full_model_based_analysis.py:120-138 | one line per zipped label and score, min(5, n) lines in label order, each "label: score - tier" |
| FullModel.OceanVeryHighLine | full_model_based_analysis.py:125-127 | a score above 75 ends its line with " - Very High" |
| FullModel.CareerRecommendations | full_model_based_analysis.py:140-176 | an empty code is an error; otherwise each list has at most three entries, from the Holland letter, the top intelligences in order, and the DISC style |
| FullModel.MiJobListAppend | full_model_based_analysis.py:169 | the jobs keep label order: jobs of a concatenation are the concatenated jobs |
| FullModel.MiJobListUnknown | full_model_based_analysis.py:169 | unknown labels contribute nothing |
| FullModel.SecondaryOfTwoLabels | full_model_based_analysis.py:169-174 | two known labels give the first's two jobs and the second's first job |
| FullModel.HighTraitsOf | full_model_based_analysis.py:209-212 | a score of 65 or more adds all high traits of its letter, a lower one none |
| FullModel.LowTraitsOf | full_model_based_analysis.py:209-214 | a score of 35 or less adds all low traits of its letter, a higher one none |
| FullModel.DiscTraitsInLetterOrder | full_model_based_analysis.py:209-214 | the traits come letter by letter in D, I, S, C order |
| FullModel.MiddleScoreAddsNothing | full_model_based_analysis.py:211-214 | a score strictly between 35 and 65 adds nothing |
| FullModel.ExceptionalItems | full_model_based_analysis.py:217-220 | every intelligence above 75 gives an "Exceptional …" strength, and every strength comes from one; none exactly when no score exceeds 75; a single entry gives its own item or none |
| FullModel.LimitedItems | full_model_based_analysis.py:217-222 | every intelligence below 40 gives a "Limited …" weakness, and every weakness comes from one; none exactly when no score is below 40; a single entry gives its own item or none |
| FullModel.ExceptionalItemsAppend | full_model_based_analysis.py:217-220 | the strengths follow the ranking order: the items of a concatenation are those of the first part, then those of the second |
| FullModel.LimitedItemsAppend | full_model_based_analysis.py:217-222 | the weaknesses follow the ranking order in the same way |
| FullModel.RankedMi | full_model_based_analysis.py:217 | the zipped intelligences, min(8, n) of them, as a permutation in descending order of score with equal scores in label order |
| FullModel.GenerateSwot | full_model_based_analysis.py:200-230 | an error exactly for more than four DISC scores; DISC traits then MI items in ranking order; the two fixed opportunities and threats |
| FullModel.FirstExceptionalIsTop | full_model_based_analysis.py:217-220 | the first MI strength names the first intelligence of highest score |
| FullModel.EstimateBrainDominance | full_model_based_analysis.py:270-273 | Left, Right or Balanced exactly as the left sum is larger, smaller or equal; short lists are an error |
| FullModel.EstimateBrainDominanceMirror | full_model_based_analysis.py:270-273 | swapping the left-side and right-side DISC and MI inputs swaps "Left" and "Right" and keeps "Balanced" |
| FullModel.TopMiLabels | full_model_based_analysis.py:276-278 | the first and runner-up labels by rounded score, as many as exist up to two |
| FullModel.TopMiLabelsKnown | full_model_based_analysis.py:276-278 | every returned label is an intelligence label with jobs |
| FullModel.DiscType | full_model_based_analysis.py:279 | the letter of the first largest DISC score; an empty list or a largest score past the fourth is an error |
| FullModel.DiscTypeIsFirstMax | full_model_based_analysis.py:279 | with four scores the type is the letter of the first largest score |
| FullModel.ReportCareers | full_model_based_analysis.py:276-304 | an error exactly for an empty code or no DISC type; otherwise the primary careers of the first Holland letter, the secondary jobs of the two best intelligences, the tertiary jobs of the first largest DISC score's letter; three secondary careers with two or more MI scores |

## Left out

- HTML and PDF rendering, the chart scripts and images, the temporary-file caching
  and the session, database and process glue. These are presentation and I/O.
- Image feature extraction (OpenCV), the trained models and their predictions, and
  the accuracy formulas. These are machine learning and floating-point numerics.
  Features and predictions are inputs here.
- The means of ridge density and of the core-delta ratio, the EQ breakdown and all
  `round(...)` calls. These are floating-point numerics. Rounding is a parameter
  of `FullModel.TopMiLabels`.
- JSON parsing and encoding. A decoded field is an `Option` input.
- Buckets.DiscLevelOf: does not model PHP's comparison of non-numeric strings with
  numbers. Only numbers and null are modelled.
- Holland.CodeDescription: the length is counted in characters, whereas PHP's
  `strlen` counts bytes. This differs only for non-ASCII codes.
- Text.ToLower: lower-cases ASCII letters only, as PHP 8's `strtolower` does.
  Python's `str.lower` also maps non-ASCII letters, but every label lower-cased
  here is ASCII.
- Derived.EducationalGuidance: PHP's `array_slice` renumbers integer keys. Only
  string keys are modelled.
- Derived.DevelopmentSuggestions: a SWOT field whose `weaknesses` entry is not a
  list is not modelled.
- FullModel.OceanProfile: the rendering of a float inside the line is a parameter.
- Fingerprint.TotalRidgeCount: every feature record carries a ridge count and a
  pattern type. So the first analyser's guard that skips empty records, or records
  without those keys, is not modelled.
- Fingerprint.AtdAngle: the value is the mean of the angles, but the contract
  states only that it lies between the smallest and largest angle. The exact
  quotient is left to the definition, because stating it invites nonlinear real
  arithmetic.
- Analysis.Lookup: a feature dictionary is a sequence with distinct names in
  insertion order. Duplicate names cannot occur in the source.

## Findings

| source | as written | input that shows it | evidently intended | confidence | as-written member | corrected member |
|---|---|---|---|---|---|---|
| report.php:731-765 | the description table is keyed by whole words ('Realistic', …) but looked up with single letters (`substr($code, 0, 1)`), so no letter is ever found | code "RIA" yields "Your primary interest is a combination of areas with secondary interests in other areas." | each letter's description, the first as the primary interest and the rest comma-joined as secondary interests | high (not executed) | Holland.CodeDescription, Holland.WordKeyedTableMissesLetters | Holland.IntendedCodeDescription, Holland.IntendedComposition |

=== FILE: analysis.dfy ===
/** The scoring rules of the first analyser (analysis.py): pattern classification,
    composite features, learning sensibility, career recommendations by Holland
    letter, the SWOT lists and brain dominance.

    A Python `IndexError` or `ValueError` (too short a code or score list, `max` of
    an empty list) ends the analysis with an error report; it is modelled as `None`. */
module Analysis {
  import opened Wrappers
  import opened Text
  import opened Numbers
  import opened Ranking
  import opened Fingerprint
  import opened Results

  // ---------------------------------------------------------------------------
  // Fingerprint patterns and composite features

  /** Whorl above circularity 0.7, arch below 0.3, loop in between (bounds included). */
  function LegacyPatternType(circularity: real): (t: int)
    ensures KnownPattern(t)
    ensures t == Whorl <==> circularity > 0.7
    ensures t == Arch <==> circularity < 0.3
    ensures t == Loop <==> 0.3 <= circularity <= 0.7
  {
    if circularity > 0.7 then Whorl
    else if circularity < 0.3 then Arch
    else Loop
  }

  /** `features.get(name)`: the feature stored under `name`, if any. */
  function Lookup(fs: seq<Feature>, name: string): (r: Option<Feature>)
    ensures r.Some? ==> r.value in fs && r.value.name == name
    ensures r.None? <==> forall i :: 0 <= i < |fs| ==> fs[i].name != name
  {
    if fs == [] then None
    else if fs[0].name == name then Some(fs[0])
    else Lookup(fs[1..], name)
  }

  /** The orientations of the right and then the left palm, for those present. */
  function PalmAngles(fs: seq<Feature>): (r: seq<real>)
    ensures |r| <= 2
    ensures r == [] <==> Lookup(fs, "right_palm").None? && Lookup(fs, "left_palm").None?
  {
    var right := Lookup(fs, "right_palm");
    var left := Lookup(fs, "left_palm");
    (if right.Some? then [right.value.orientation] else [])
    + (if left.Some? then [left.value.orientation] else [])
  }

  /** TFRC is the total ridge count over all prints; the ATD angle is the mean palm
      orientation (45 without palms); the pattern counts cover every print that the
      classifier above has classified. */
  function CompositeFeatures(fs: seq<Feature>): (c: Composite)
    ensures c.tfrc == TotalRidgeCount(fs)
    ensures c.distribution == PatternDistribution(fs)
    ensures PalmAngles(fs) == [] ==> c.atdAngle == DefaultAtdAngle
    ensures PalmAngles(fs) != [] ==> MinOf(PalmAngles(fs)) <= c.atdAngle <= MaxOf(PalmAngles(fs))
    ensures (forall i :: 0 <= i < |fs| ==> fs[i].patternType == LegacyPatternType(fs[i].circularity))
            ==> c.distribution.loops + c.distribution.whorls + c.distribution.arches == |fs|
  {
    Composite(TotalRidgeCount(fs), AtdAngle(PalmAngles(fs)), PatternDistribution(fs))
  }

  // ---------------------------------------------------------------------------
  // Learning sensibility

  /** +2 for an ATD angle below 35, -1 above 45, nothing in between. */
  function AtdAdjustment(atd: real): (a: int)
    ensures a == 2 <==> atd < 35.0
    ensures a == -1 <==> atd > 45.0
    ensures a == 0 <==> 35.0 <= atd <= 45.0
  {
    if atd < 35.0 then 2 else if atd > 45.0 then -1 else 0
  }

  /** Independently: +2 for more than five whorls, -1 for more than three arches. */
  function PatternAdjustment(patterns: Distribution): (a: int)
    ensures -1 <= a <= 2
    ensures a > 0 <==> patterns.whorls > 5
    ensures (a == -1 || a == 1) <==> patterns.arches > 3
  {
    (if patterns.whorls > 5 then 2 else 0) + (if patterns.arches > 3 then -1 else 0)
  }

  const SensibilityBase := 5

  /** The learning-sensibility score: the base 5 plus both adjustments, clamped to
      [1, 10]; the adjustments keep it within [3, 9], so the clamp never applies. */
  function LearningSensibility(atd: real, patterns: Distribution): (r: int)
    ensures 1 <= r <= 10
    ensures 3 <= r <= 9
    ensures r == SensibilityBase + AtdAdjustment(atd) + PatternAdjustment(patterns)
  {
    var score := SensibilityBase;
    var score := if atd < 35.0 then score + 2 else if atd > 45.0 then score - 1 else score;
    var score := if patterns.whorls > 5 then score + 2 else score;
    var score := if patterns.arches > 3 then score - 1 else score;
    if score > 10 then 10 else if score < 1 then 1 else score
  }

  /** The score never rises with the ATD angle or the arch count, and never falls
      with the whorl count. */
  lemma LearningSensibilityMonotone(atd1: real, atd2: real, p1: Distribution, p2: Distribution)
    requires atd1 <= atd2 && p1.whorls >= p2.whorls && p1.arches <= p2.arches
    ensures LearningSensibility(atd1, p1) >= LearningSensibility(atd2, p2)
  {
  }

  // ---------------------------------------------------------------------------
  // Career recommendations

  const HollandCareers: map<char, seq<string>> := map[
    'R' := ["Mechanical Engineer", "Surgeon", "Architect"],
    'I' := ["Scientist", "Mathematician", "Research Analyst"],
    'A' := ["Artist", "Musician", "Graphic Designer"],
    'S' := ["Teacher", "Psychologist", "Social Worker"],
    'E' := ["Entrepreneur", "Sales Manager", "Politician"],
    'C' := ["Accountant", "Banker", "Data Analyst"]
  ]

  /** The careers of one Holland letter; an unknown letter has none. */
  function CareersFor(letter: char): (r: seq<string>)
    ensures letter in HollandCareers ==> r == HollandCareers[letter]
    ensures |r| == 3 <==> letter in "RIASEC"
    ensures r == [] <==> letter !in "RIASEC"
  {
    if letter in HollandCareers then HollandCareers[letter] else []
  }

  datatype Careers = Careers(primary: seq<string>, secondary: seq<string>, tertiary: seq<string>)

  /** Primary, secondary and tertiary careers from the first three letters of the
      code; a shorter code is an error. */
  function CareerRecommendations(code: string): (r: Option<Careers>)
    ensures r.Some? <==> |code| >= 3
    ensures r.Some? ==> (r.value.primary == CareersFor(code[0])
                         && r.value.secondary == CareersFor(code[1])
                         && r.value.tertiary == CareersFor(code[2]))
  {
    if |code| < 3 then None
    else Some(Careers(CareersFor(code[0]), CareersFor(code[1]), CareersFor(code[2])))
  }

  /** Only the first three letters of the code matter. */
  lemma CareerRecommendationsUseThreeLetters(code: string)
    requires |code| >= 3
    ensures CareerRecommendations(code) == CareerRecommendations(code[..3])
  {
  }

  // ---------------------------------------------------------------------------
  // SWOT analysis

  const DiscStrengthTexts: seq<string> :=
    ["Natural leadership ability", "Strong communication skills",
     "Reliable and steady under pressure", "Attention to detail and accuracy"]
  const DiscWeaknessTexts: seq<string> :=
    ["May avoid taking charge", "May struggle with public speaking",
     "May resist routine tasks", "May overlook details"]

  const TeamOpportunity := "Team-based projects"
  const IsolationThreat := "Isolated work environments"
  const ResearchOpportunity := "Independent research"
  const CollaborationThreat := "Constant group collaboration"
  const DefaultStrength := "Adaptable to different situations"
  const DefaultWeakness := "May need to develop in some areas"
  const DefaultOpportunity := "Growth through new experiences"
  const DefaultThreat := "Complacency in comfort zones"

  /** The texts whose flag is set, in order. */
  function Select(texts: seq<string>, keep: seq<bool>): (r: seq<string>)
    requires |keep| == |texts|
    ensures |r| <= |texts|
  {
    if texts == [] then []
    else (if keep[0] then [texts[0]] else []) + Select(texts[1..], keep[1..])
  }

  predicate Distinct(texts: seq<string>) {
    forall i, j :: 0 <= i < j < |texts| ==> texts[i] != texts[j]
  }

  /** Among distinct texts, a text is selected exactly when its flag is set. */
  lemma {:induction false} SelectMember(texts: seq<string>, keep: seq<bool>, k: nat)
    requires |keep| == |texts| && k < |texts|
    requires Distinct(texts)
    ensures texts[k] in Select(texts, keep) <==> keep[k]
  {
    if k == 0 {
      SelectOnlyListed(texts[1..], keep[1..], texts[0]);
    } else {
      SelectMember(texts[1..], keep[1..], k - 1);
      assert texts[1..][k - 1] == texts[k];
    }
  }

  /** A text none of whose entries equal `t` never selects `t`. */
  lemma {:induction false} SelectOnlyListed(texts: seq<string>, keep: seq<bool>, t: string)
    requires |keep| == |texts|
    requires forall j :: 0 <= j < |texts| ==> texts[j] != t
    ensures t !in Select(texts, keep)
  {
    if texts != [] {
      SelectOnlyListed(texts[1..], keep[1..], t);
    }
  }

  /** With every flag set, everything is selected. */
  lemma {:induction false} SelectAll(texts: seq<string>, keep: seq<bool>)
    requires |keep| == |texts|
    requires forall i :: 0 <= i < |keep| ==> keep[i]
    ensures Select(texts, keep) == texts
  {
    if texts != [] {
      SelectAll(texts[1..], keep[1..]);
    }
  }

  /** Which of the four DISC scores equal `v`. */
  function AtValue(disc: seq<real>, v: real): (keep: seq<bool>)
    requires |disc| >= 4
    ensures |keep| == 4
    ensures forall k :: 0 <= k < 4 ==> (keep[k] <==> disc[k] == v)
  {
    [disc[0] == v, disc[1] == v, disc[2] == v, disc[3] == v]
  }

  /** One strength per DISC score equal to the largest score. */
  function DiscStrengths(disc: seq<real>): (r: seq<string>)
    requires |disc| >= 4
    ensures |r| <= 4
  {
    Select(DiscStrengthTexts, AtValue(disc, MaxOf(disc)))
  }

  /** One weakness per DISC score equal to the smallest score. */
  function DiscWeaknesses(disc: seq<real>): (r: seq<string>)
    requires |disc| >= 4
    ensures |r| <= 4
  {
    Select(DiscWeaknessTexts, AtValue(disc, MinOf(disc)))
  }

  function StrongIntelligence(name: string): string {
    "Strong " + ToLower(name) + " intelligence"
  }

  /** A strength for each listed intelligence scoring above 70, in list order. */
  function StrongIntelligences(top: Entries): (r: seq<string>)
    ensures |r| <= |top|
    ensures r == [] <==> forall i :: 0 <= i < |top| ==> top[i].score <= 70.0
    ensures forall i :: 0 <= i < |top| && top[i].score > 70.0 ==> StrongIntelligence(top[i].key) in r
    ensures forall t :: t in r ==>
              exists i :: 0 <= i < |top| && top[i].score > 70.0 && t == StrongIntelligence(top[i].key)
    ensures r != [] && top[0].score > 70.0 ==> r[0] == StrongIntelligence(top[0].key)
  {
    if top == [] then []
    else
      var head := if top[0].score > 70.0 then [StrongIntelligence(top[0].key)] else [];
      var rest := StrongIntelligences(top[1..]);
      assert forall i :: 1 <= i < |top| ==> top[i] == top[1..][i - 1];
      head + rest
  }

  /** The scores paired with the eight intelligence labels, in label order. */
  function LabelledMi(mi: seq<real>): Entries {
    Zip(MiLabels, mi)
  }

  /** Strengths from the two best-ranked entries only: the first names the first
      entry of highest score and is present exactly when some entry scores above 70;
      the second names the runner-up and is present exactly when it scores above 70. */
  function TopStrengths(all: Entries): (r: seq<string>)
    ensures |r| <= 2
    ensures r != [] <==> exists i :: 0 <= i < |all| && all[i].score > 70.0
    ensures r != [] ==> r[0] == StrongIntelligence(all[ArgMax(all)].key)
    ensures |all| >= 2 ==> (|r| == 2 <==> RunnerUp(all).score > 70.0)
    ensures |r| == 2 ==> |all| >= 2 && r[1] == StrongIntelligence(RunnerUp(all).key)
  {
    var top := Leading(SortDesc(all));
    if |all| == 0 then
      StrongIntelligences(top)
    else if |all| == 1 then
      OneEntryStrength(all);
      StrongIntelligences(top)
    else
      LeadingTwo(all);
      StrongOfTwo(all[ArgMax(all)], RunnerUp(all));
      StrongIntelligences(top)
  }

  lemma OneEntryStrength(all: Entries)
    requires |all| == 1
    ensures ArgMax(all) == 0
    ensures StrongIntelligences(Leading(SortDesc(all)))
         == if all[0].score > 70.0 then [StrongIntelligence(all[0].key)] else []
  {
    SortDescFirst(all);
    var top := Leading(SortDesc(all));
    assert top == [all[0]];
    assert top[1..] == [];
  }

  lemma StrongOfTwo(a: Entry, b: Entry)
    ensures StrongIntelligences([a, b])
         == (if a.score > 70.0 then [StrongIntelligence(a.key)] else [])
          + (if b.score > 70.0 then [StrongIntelligence(b.key)] else [])
  {
    assert [a, b][1..] == [b];
    assert [b][1..] == [];
  }

  /** The MI strengths of the eight labelled scores: the best intelligence when it
      scores above 70, then the runner-up when it does too. */
  function MiStrengths(mi: seq<real>): (r: seq<string>)
    ensures var z := LabelledMi(mi);
      && |r| <= 2
      && (r != [] <==> exists i :: 0 <= i < |z| && z[i].score > 70.0)
      && (r != [] ==> r[0] == StrongIntelligence(z[ArgMax(z)].key))
      && (|z| >= 2 ==> (|r| == 2 <==> RunnerUp(z).score > 70.0))
      && (|r| == 2 ==> |z| >= 2 && r[1] == StrongIntelligence(RunnerUp(z).key))
  {
    TopStrengths(LabelledMi(mi))
  }

  /** Zero or one item. */
  function ItemWhen(c: bool, item: string): (r: seq<string>)
    ensures c ==> r == [item]
    ensures !c ==> r == []
  {
    if c then [item] else []
  }

  /** The list, or the single fallback when it is empty. */
  function OrElse(items: seq<string>, fallback: string): (r: seq<string>)
    ensures r != []
    ensures items != [] ==> r == items
    ensures items == [] ==> r == [fallback]
  {
    if items == [] then [fallback] else items
  }

  const VisualStrength := "Strong visual learning ability"
  const VisualWeakness := "May struggle with audio-only instruction"
  const AuditoryStrength := "Strong listening comprehension"
  const AuditoryWeakness := "May struggle with visual-heavy materials"
  const LeadershipStrength := "Inspires and motivates others"
  const LeadershipWeakness := "May overlook practical details"

  /** The items added for the learning style (exactly "Visual", else exactly
      "Auditory") and then for a leadership style naming "Transformational". Each
      of the three distinct texts is present exactly when its rule applies, and
      nothing else is added. */
  function StyleItems(learning: string, leadership: string, visual: string, auditory: string, leader: string)
    : (t: seq<string>)
    requires visual != auditory && visual != leader && auditory != leader
    ensures |t| == (if learning == "Visual" || learning == "Auditory" then 1 else 0)
                   + (if Substring(leadership, "Transformational") then 1 else 0)
    ensures visual in t <==> learning == "Visual"
    ensures auditory in t <==> learning == "Auditory"
    ensures leader in t <==> Substring(leadership, "Transformational")
    ensures forall x :: x in t ==> x == visual || x == auditory || x == leader
    ensures learning == "Visual" ==> t[0] == visual
    ensures learning == "Auditory" ==> t[0] == auditory
    ensures leader in t ==> t[|t| - 1] == leader
  {
    ItemWhen(learning == "Visual", visual)
    + ItemWhen(learning != "Visual" && learning == "Auditory", auditory)
    + ItemWhen(Substring(leadership, "Transformational"), leader)
  }

  lemma StyleTextsDistinct()
    ensures VisualStrength != AuditoryStrength && VisualStrength != LeadershipStrength
    ensures AuditoryStrength != LeadershipStrength
    ensures VisualWeakness != AuditoryWeakness && VisualWeakness != LeadershipWeakness
    ensures AuditoryWeakness != LeadershipWeakness
  {
    assert |VisualStrength| == 30 && |AuditoryStrength| == 30 && |LeadershipStrength| == 29;
    assert VisualStrength[29] == 'y' && AuditoryStrength[29] == 'n';
    assert |VisualWeakness| == 40 && |AuditoryWeakness| == 40 && |LeadershipWeakness| == 30;
    assert VisualWeakness[39] == 'n' && AuditoryWeakness[39] == 's';
  }

  /** Strengths before the fallback: DISC maxima and MI strengths, then the visual or
      auditory strength for that learning style and the leadership strength for a
      transformational leader, and nothing else. */
  function StrengthItems(disc: seq<real>, learning: string, leadership: string, mi: seq<real>): (r: seq<string>)
    requires |disc| >= 4
    ensures var s := DiscStrengths(disc) + MiStrengths(mi);
      && |s| <= |r| <= |s| + 2 && r[..|s|] == s
      && (VisualStrength in r[|s|..] <==> learning == "Visual")
      && (AuditoryStrength in r[|s|..] <==> learning == "Auditory")
      && (LeadershipStrength in r[|s|..] <==> Substring(leadership, "Transformational"))
      && (forall x :: x in r[|s|..] ==> x == VisualStrength || x == AuditoryStrength || x == LeadershipStrength)
      && |r| == |s| + (if learning == "Visual" || learning == "Auditory" then 1 else 0)
                    + (if Substring(leadership, "Transformational") then 1 else 0)
      && (learning == "Visual" ==> r[|s|] == VisualStrength)
      && (learning == "Auditory" ==> r[|s|] == AuditoryStrength)
      && (Substring(leadership, "Transformational") ==> r[|r| - 1] == LeadershipStrength)
  {
    var s := DiscStrengths(disc) + MiStrengths(mi);
    StyleTextsDistinct();
    var t := StyleItems(learning, leadership, VisualStrength, AuditoryStrength, LeadershipStrength);
    assert (s + t)[..|s|] == s && (s + t)[|s|..] == t;
    s + t
  }

  /** Weaknesses before the fallback: DISC minima, then the visual or auditory
      weakness for that learning style and the leadership weakness for a
      transformational leader, and nothing else. */
  function WeaknessItems(disc: seq<real>, learning: string, leadership: string): (r: seq<string>)
    requires |disc| >= 4
    ensures var w := DiscWeaknesses(disc);
      && |w| <= |r| <= |w| + 2 && r[..|w|] == w
      && (VisualWeakness in r[|w|..] <==> learning == "Visual")
      && (AuditoryWeakness in r[|w|..] <==> learning == "Auditory")
      && (LeadershipWeakness in r[|w|..] <==> Substring(leadership, "Transformational"))
      && (forall x :: x in r[|w|..] ==> x == VisualWeakness || x == AuditoryWeakness || x == LeadershipWeakness)
      && |r| == |w| + (if learning == "Visual" || learning == "Auditory" then 1 else 0)
                    + (if Substring(leadership, "Transformational") then 1 else 0)
      && (learning == "Visual" ==> r[|w|] == VisualWeakness)
      && (learning == "Auditory" ==> r[|w|] == AuditoryWeakness)
      && (Substring(leadership, "Transformational") ==> r[|r| - 1] == LeadershipWeakness)
  {
    var w := DiscWeaknesses(disc);
    StyleTextsDistinct();
    var t := StyleItems(learning, leadership, VisualWeakness, AuditoryWeakness, LeadershipWeakness);
    assert (w + t)[..|w|] == w && (w + t)[|w|..] == t;
    w + t
  }

  /** Opportunities: team projects for an extravert ('E'), independent research for an
      introvert ('I'), otherwise the fallback. */
  function Opportunities(personality: string): (r: seq<string>)
    ensures r != []
    ensures TeamOpportunity in r <==> 'E' in personality
    ensures ResearchOpportunity in r <==> 'I' in personality
    ensures r == [DefaultOpportunity] <==> 'E' !in personality && 'I' !in personality
    ensures |r| == if 'E' !in personality && 'I' !in personality then 1
                   else (if 'E' in personality then 1 else 0) + (if 'I' in personality then 1 else 0)
    ensures 'E' in personality ==> r[0] == TeamOpportunity
    ensures 'I' in personality ==> r[|r| - 1] == ResearchOpportunity
  {
    assert |TeamOpportunity| == 19 && |ResearchOpportunity| == 20 && |DefaultOpportunity| == 30;
    OrElse(ItemWhen('E' in personality, TeamOpportunity) + ItemWhen('I' in personality, ResearchOpportunity), DefaultOpportunity)
  }

  /** Threats mirror the opportunities: isolation for 'E', group work for 'I'. */
  function Threats(personality: string): (r: seq<string>)
    ensures r != []
    ensures IsolationThreat in r <==> 'E' in personality
    ensures CollaborationThreat in r <==> 'I' in personality
    ensures r == [DefaultThreat] <==> 'E' !in personality && 'I' !in personality
    ensures |r| == if 'E' !in personality && 'I' !in personality then 1
                   else (if 'E' in personality then 1 else 0) + (if 'I' in personality then 1 else 0)
    ensures 'E' in personality ==> r[0] == IsolationThreat
    ensures 'I' in personality ==> r[|r| - 1] == CollaborationThreat
  {
    assert |IsolationThreat| == 26 && |CollaborationThreat| == 28 && |DefaultThreat| == 28;
    assert CollaborationThreat[27] == 'n' && DefaultThreat[27] == 's';
    OrElse(ItemWhen('E' in personality, IsolationThreat) + ItemWhen('I' in personality, CollaborationThreat), DefaultThreat)
  }

  /** The SWOT lists, each falling back to a fixed item when empty. Fewer than four
      DISC scores is an error. */
  function SwotAnalysis(personality: string, disc: seq<real>, learning: string, leadership: string,
                        mi: seq<real>): (r: Option<Swot>)
    ensures r.Some? <==> |disc| >= 4
    ensures r.Some? ==> (r.value.strengths != [] && r.value.weaknesses != []
                         && r.value.opportunities != [] && r.value.threats != [])
    ensures r.Some? ==> r.value.strengths == OrElse(StrengthItems(disc, learning, leadership, mi), DefaultStrength)
    ensures r.Some? ==> r.value.weaknesses == OrElse(WeaknessItems(disc, learning, leadership), DefaultWeakness)
    ensures r.Some? ==> var s := DiscStrengths(disc) + MiStrengths(mi);
              |s| <= |r.value.strengths| && r.value.strengths[..|s|] == s
    ensures r.Some? ==> var w := DiscWeaknesses(disc);
              |w| <= |r.value.weaknesses| && r.value.weaknesses[..|w|] == w
    ensures r.Some? ==> (r.value.opportunities == Opportunities(personality)
                         && r.value.threats == Threats(personality))
  {
    if |disc| < 4 then None
    else
      Some(Swot(OrElse(StrengthItems(disc, learning, leadership, mi), DefaultStrength),
                OrElse(WeaknessItems(disc, learning, leadership), DefaultWeakness),
                Opportunities(personality), Threats(personality)))
  }

  lemma DiscTextsDistinct()
    ensures Distinct(DiscStrengthTexts) && Distinct(DiscWeaknessTexts)
  {
    assert |DiscStrengthTexts[0]| == 26 && |DiscStrengthTexts[1]| == 27;
    assert |DiscStrengthTexts[2]| == 34 && |DiscStrengthTexts[3]| == 32;
    assert |DiscWeaknessTexts[0]| == 23 && |DiscWeaknessTexts[1]| == 33;
    assert |DiscWeaknessTexts[2]| == 24 && |DiscWeaknessTexts[3]| == 20;
  }

  /** A DISC strength is listed exactly for the scores equal to the maximum, and a
      weakness exactly for those equal to the minimum; ties list several. */
  lemma DiscExtremesListed(disc: seq<real>, k: nat)
    requires |disc| >= 4 && k < 4
    ensures DiscStrengthTexts[k] in DiscStrengths(disc) <==> disc[k] == MaxOf(disc)
    ensures DiscWeaknessTexts[k] in DiscWeaknesses(disc) <==> disc[k] == MinOf(disc)
  {
    DiscTextsDistinct();
    SelectMember(DiscStrengthTexts, AtValue(disc, MaxOf(disc)), k);
    SelectMember(DiscWeaknessTexts, AtValue(disc, MinOf(disc)), k);
  }

  /** Four equal DISC scores list all four strengths and all four weaknesses. */
  lemma EqualDiscListsAll(disc: seq<real>)
    requires |disc| == 4 && disc[0] == disc[1] == disc[2] == disc[3]
    ensures DiscStrengths(disc) == DiscStrengthTexts
    ensures DiscWeaknesses(disc) == DiscWeaknessTexts
  {
    var hi := MaxOf(disc);
    var lo := MinOf(disc);
    SelectAll(DiscStrengthTexts, AtValue(disc, hi));
    SelectAll(DiscWeaknessTexts, AtValue(disc, lo));
  }

  /** With exactly four DISC scores, at least one strength and one weakness come
      from DISC, since the extremes are among the four. */
  lemma FourDiscScoresListSomething(disc: seq<real>)
    requires |disc| == 4
    ensures DiscStrengths(disc) != [] && DiscWeaknesses(disc) != []
  {
    var hi := MaxOf(disc);
    var lo := MinOf(disc);
    var i :| 0 <= i < 4 && disc[i] == hi;
    var j :| 0 <= j < 4 && disc[j] == lo;
    DiscExtremesListed(disc, i);
    DiscExtremesListed(disc, j);
  }

  // ---------------------------------------------------------------------------
  // Brain dominance

  /** "Left" exactly when D + C exceeds I + S, otherwise "Right" (ties included). */
  function BrainDominance(disc: seq<real>): (r: Option<string>)
    ensures r.Some? <==> |disc| >= 4
    ensures r.Some? ==> r.value == "Left" || r.value == "Right"
    ensures r.Some? ==> (r.value == "Left" <==> disc[0] + disc[3] > disc[1] + disc[2])
  {
    if |disc| < 4 then None
    else if disc[0] + disc[3] > disc[1] + disc[2] then Some("Left")
    else Some("Right")
  }

  /** Exchanging D with I and S with C turns a left-dominant profile right-dominant. */
  lemma BrainDominanceMirror(d: real, i: real, s: real, c: real)
    requires BrainDominance([d, i, s, c]) == Some("Left")
    ensures BrainDominance([i, d, c, s]) == Some("Right")
  {
  }
}

=== FILE: buckets.dfy ===
/** The three-tier step functions of the report page: the DISC score level and the
    interpretations of the three fingerprint measurements. */
module Buckets {
  import opened Wrappers

  /** An ordinal bucket. */
  datatype Tier = Low | Medium | High {
    function Rank(): nat {
      match this
      case Low => 0
      case Medium => 1
      case High => 2
    }
  }

  /** A three-tier step with strict-less thresholds: below `lo` is low, below `hi` is
      medium, anything else is high. */
  function Step(x: real, lo: real, hi: real): (t: Tier)
    requires lo <= hi
    ensures t == Low <==> x < lo
    ensures t == Medium <==> lo <= x < hi
    ensures t == High <==> hi <= x
  {
    if x < lo then Low else if x < hi then Medium else High
  }

  /** A step never falls back to a lower tier as its input grows. */
  lemma StepMonotone(x: real, y: real, lo: real, hi: real)
    requires lo <= hi && x <= y
    ensures Step(x, lo, hi).Rank() <= Step(y, lo, hi).Rank()
  {
  }

  /** The DISC level, the same for each of the four letters: below 40 low, below 70
      medium, otherwise high. */
  function DiscLevel(score: real): (t: Tier)
    ensures t == Low <==> score < 40.0
    ensures t == Medium <==> 40.0 <= score < 70.0
    ensures t == High <==> score >= 70.0
  {
    Step(score, 40.0, 70.0)
  }

  lemma DiscLevelMonotone(x: real, y: real)
    requires x <= y
    ensures DiscLevel(x).Rank() <= DiscLevel(y).Rank()
  {
    StepMonotone(x, y, 40.0, 70.0);
  }

  /** PHP `$x < $bound` where `$x` may be null: null and a number are both cast to
      bool, so null is less than every non-zero number. */
  predicate NullableLess(x: Option<real>, bound: real) {
    match x
    case None => bound != 0.0
    case Some(v) => v < bound
  }

  /** PHP `$x > $bound` where `$x` may be null: false is greater than nothing. */
  predicate NullableGreater(x: Option<real>, bound: real) {
    match x
    case None => false
    case Some(v) => v > bound
  }

  /** The DISC level of a score read from a decoded profile: a missing letter reads
      as PHP null, which compares below 40 and therefore lands in the low tier. */
  function DiscLevelOf(score: Option<real>): (t: Tier)
    ensures score.None? ==> t == Low
    ensures score.Some? ==> t == DiscLevel(score.value)
  {
    if NullableLess(score, 40.0) then Low
    else if NullableLess(score, 70.0) then Medium
    else High
  }

  const TfrcLowText := "Low ridge count indicates potential for abstract thinking and conceptual abilities."
  const TfrcMediumText := "Moderate ridge count suggests balanced cognitive abilities."
  const TfrcHighText := "High ridge count indicates strong potential for detailed, concrete thinking and memory capacity."

  /** The total-finger-ridge-count interpretation, thresholds 100 and 150. */
  function TfrcInterpretation(tfrc: real): (r: string)
    ensures r == TfrcLowText <==> tfrc < 100.0
    ensures r == TfrcMediumText <==> 100.0 <= tfrc < 150.0
    ensures r == TfrcHighText <==> tfrc >= 150.0
  {
    if tfrc < 100.0 then TfrcLowText
    else if tfrc < 150.0 then TfrcMediumText
    else TfrcHighText
  }

  const AtdLowText := "Fast information processing speed and quick reflexes."
  const AtdMediumText := "Average information processing speed and reaction time."
  const AtdHighText := "More deliberate information processing style with careful consideration."

  /** The ATD-angle interpretation, thresholds 35 and 45 degrees. */
  function AtdAngleInterpretation(angle: real): (r: string)
    ensures r == AtdLowText <==> angle < 35.0
    ensures r == AtdMediumText <==> 35.0 <= angle < 45.0
    ensures r == AtdHighText <==> angle >= 45.0
  {
    if angle < 35.0 then AtdLowText
    else if angle < 45.0 then AtdMediumText
    else AtdHighText
  }

  const SensibilityLowText := "Preference for structured, step-by-step learning with clear instructions."
  const SensibilityMediumText := "Balanced learning approach that adapts to different teaching methods."
  const SensibilityHighText := "Preference for exploratory, self-directed learning with minimal guidance."

  /** The learning-sensibility interpretation, thresholds 3 and 7. */
  function LearningSensibilityInterpretation(score: real): (r: string)
    ensures r == SensibilityLowText <==> score < 3.0
    ensures r == SensibilityMediumText <==> 3.0 <= score < 7.0
    ensures r == SensibilityHighText <==> score >= 7.0
  {
    if score < 3.0 then SensibilityLowText
    else if score < 7.0 then SensibilityMediumText
    else SensibilityHighText
  }

  /** The position of an interpretation in its three-tier ladder. */
  function TextTier(r: string, low: string, medium: string): Tier {
    if r == low then Low else if r == medium then Medium else High
  }

  /** Each interpretation is the text of the tier `Step` assigns with the same
      thresholds, so it never moves back down a tier as its input grows. */
  lemma InterpretationsAreSteps(x: real)
    ensures TextTier(TfrcInterpretation(x), TfrcLowText, TfrcMediumText) == Step(x, 100.0, 150.0)
    ensures TextTier(AtdAngleInterpretation(x), AtdLowText, AtdMediumText) == Step(x, 35.0, 45.0)
    ensures TextTier(LearningSensibilityInterpretation(x), SensibilityLowText, SensibilityMediumText) == Step(x, 3.0, 7.0)
  {
  }

  lemma InterpretationsMonotone(x: real, y: real)
    requires x <= y
    ensures TextTier(TfrcInterpretation(x), TfrcLowText, TfrcMediumText).Rank()
         <= TextTier(TfrcInterpretation(y), TfrcLowText, TfrcMediumText).Rank()
    ensures TextTier(AtdAngleInterpretation(x), AtdLowText, AtdMediumText).Rank()
         <= TextTier(AtdAngleInterpretation(y), AtdLowText, AtdMediumText).Rank()
    ensures TextTier(LearningSensibilityInterpretation(x), SensibilityLowText, SensibilityMediumText).Rank()
         <= TextTier(LearningSensibilityInterpretation(y), SensibilityLowText, SensibilityMediumText).Rank()
  {
    InterpretationsAreSteps(x);
    InterpretationsAreSteps(y);
    StepMonotone(x, y, 100.0, 150.0);
    StepMonotone(x, y, 35.0, 45.0);
    StepMonotone(x, y, 3.0, 7.0);
  }

  /** The boundary values of the DISC level. */
  lemma DiscLevelBoundaries()
    ensures DiscLevel(39.0) == Low && DiscLevel(40.0) == Medium
    ensures DiscLevel(69.0) == Medium && DiscLevel(70.0) == High
  {
  }
}

=== FILE: derived.dfy ===
/** The fields the report page derives from a stored test record before rendering:
    the multiple-intelligence ranking, the decoded DISC profile and its descriptions,
    the development suggestions, the educational guidance and the career-path
    guidance.

    JSON decoding is abstract: a decoded field is an `Option`, `None` standing for
    PHP null (a NULL column, or text that does not decode) and for any non-array
    value, which every later array access reads as null. */
module Derived {
  import opened Wrappers
  import opened Text
  import opened Ranking
  import opened Buckets
  import Tables
  import opened Results

  // ---------------------------------------------------------------------------
  // Multiple-intelligence ranking

  /** The eight scalar MI columns of a test record; a NULL column is `None`. */
  datatype MiColumns = MiColumns(
    verbalLinguistic: Option<real>,
    logicalMathematical: Option<real>,
    visualSpatial: Option<real>,
    musical: Option<real>,
    bodilyKinesthetic: Option<real>,
    interpersonal: Option<real>,
    intrapersonal: Option<real>,
    naturalistic: Option<real>)

  const DefaultMiKeys: seq<string> :=
    ["Linguistic", "Logical", "Spatial", "Musical", "Bodily", "Interpersonal", "Intrapersonal", "Naturalist"]

  function ColumnScores(c: MiColumns): seq<Option<real>> {
    [c.verbalLinguistic, c.logicalMathematical, c.visualSpatial, c.musical,
     c.bodilyKinesthetic, c.interpersonal, c.intrapersonal, c.naturalistic]
  }

  /** The distribution rebuilt from the scalar columns: the eight fixed keys in fixed
      order, each column's value or 50 when the column is NULL. */
  function DefaultDistribution(c: MiColumns): (r: Entries)
    ensures |r| == 8
    ensures forall i :: 0 <= i < 8 ==> r[i].key == DefaultMiKeys[i]
    ensures forall i :: 0 <= i < 8 ==> r[i].score == ColumnScores(c)[i].GetOr(50.0)
  {
    seq(8, i requires 0 <= i < 8 => Entry(DefaultMiKeys[i], ColumnScores(c)[i].GetOr(50.0)))
  }

  /** The distribution the page ranks: the decoded one unless it is empty or not an
      array, in which case the rebuilt one. */
  function MiDistribution(decoded: Option<Entries>, c: MiColumns): (r: Entries)
    ensures |r| > 0
    ensures decoded.Some? && decoded.value != [] ==> r == decoded.value
    ensures decoded.None? || decoded.value == [] ==> r == DefaultDistribution(c)
  {
    if decoded.None? || decoded.value == [] then DefaultDistribution(c) else decoded.value
  }

  const Unknown := "Unknown"

  datatype Ranked = Ranked(primary: string, secondary: string)

  /** Primary and secondary intelligence: the first two keys after the stable
      descending sort, "Unknown" for a missing position. */
  function RankIntelligences(decoded: Option<Entries>, c: MiColumns): (r: Ranked)
    ensures var dist := MiDistribution(decoded, c);
      && r.primary == dist[ArgMax(dist)].key
      && (|dist| == 1 ==> r.secondary == Unknown)
      && (|dist| >= 2 ==> r.secondary == RemoveAt(dist, ArgMax(dist))[ArgMax(RemoveAt(dist, ArgMax(dist)))].key)
  {
    var dist := MiDistribution(decoded, c);
    var keys := TopKeys(SortDesc(dist), 2);
    SortDescFirst(dist);
    if |dist| >= 2 then
      SortDescSecond(dist);
      Ranked(keys[0], keys[1])
    else
      Ranked(keys[0], Unknown)
  }

  /** With every column NULL and nothing decoded, all eight scores are 50, so the
      ranking keeps the fixed order: Linguistic, then Logical. */
  lemma RankDefaultsAllFifty()
    ensures RankIntelligences(None, MiColumns(None, None, None, None, None, None, None, None))
         == Ranked("Linguistic", "Logical")
  {
    var c := MiColumns(None, None, None, None, None, None, None, None);
    var dist := DefaultDistribution(c);
    var k := ArgMax(dist);
    assert dist[0].score == 50.0;
    assert k == 0;
    var rest := RemoveAt(dist, 0);
    assert rest[0] == dist[1];
    assert ArgMax(rest) == 0;
  }

  /** Ties keep insertion order: Linguistic 70, Logical 70, Spatial 50 ranks
      Linguistic first and Logical second. */
  lemma RankTiesKeepOrder(c: MiColumns)
    ensures RankIntelligences(Some([Entry("Linguistic", 70.0), Entry("Logical", 70.0), Entry("Spatial", 50.0)]), c)
         == Ranked("Linguistic", "Logical")
  {
    var dist := [Entry("Linguistic", 70.0), Entry("Logical", 70.0), Entry("Spatial", 50.0)];
    assert ArgMax(dist) == 0;
    var rest := RemoveAt(dist, 0);
    assert rest == [Entry("Logical", 70.0), Entry("Spatial", 50.0)];
    assert ArgMax(rest) == 0;
  }

  // ---------------------------------------------------------------------------
  // DISC profile

  /** A JSON column: NULL, or stored text whose decoding is `decoded`. */
  datatype Column<T> = Null | Stored(decoded: Option<T>)

  type Profile = map<string, real>

  const DefaultDiscProfile: Profile := map["D" := 50.0, "I" := 50.0, "S" := 50.0, "C" := 50.0]

  /** The DISC profile of the page: the defaults apply to a NULL column only; text
      that does not decode to an array gives an empty profile. */
  function DiscProfile(column: Column<Profile>): (r: Profile)
    ensures column.Null? ==> r == DefaultDiscProfile
    ensures column == Stored(None) ==> r == map[]
    ensures column.Stored? && column.decoded.Some? ==> r == column.decoded.value
  {
    match column
    case Null => DefaultDiscProfile
    case Stored(d) => d.GetOr(map[])
  }

  function LetterKey(letter: Tables.DiscLetter): string {
    match letter
    case D => "D"
    case I => "I"
    case S => "S"
    case C => "C"
  }

  /** A letter's score, or PHP null when the profile lacks it. */
  function DiscScore(profile: Profile, letter: Tables.DiscLetter): (r: Option<real>)
    ensures LetterKey(letter) in profile <==> r.Some?
  {
    var k := LetterKey(letter);
    if k in profile then Some(profile[k]) else None
  }

  /** The description printed for a letter of the page's profile. */
  function DiscDescriptionOf(profile: Profile, letter: Tables.DiscLetter): (r: string)
    ensures LetterKey(letter) in profile ==> r == Tables.DiscDescription(letter, profile[LetterKey(letter)])
    ensures LetterKey(letter) !in profile ==> r == Tables.DiscText(letter, Low)
  {
    Tables.DiscText(letter, DiscLevelOf(DiscScore(profile, letter)))
  }

  /** A NULL column reads as 50 for every letter (the medium text), but stored "{}"
      reads as null for every letter, which PHP compares below 40 (the low text). */
  lemma DiscDefaultsOnlyForNull(letter: Tables.DiscLetter)
    ensures DiscDescriptionOf(DiscProfile(Null), letter) == Tables.DiscText(letter, Medium)
    ensures DiscDescriptionOf(DiscProfile(Stored(Some(map[]))), letter) == Tables.DiscText(letter, Low)
  {
    assert LetterKey(letter) in DefaultDiscProfile && DefaultDiscProfile[LetterKey(letter)] == 50.0;
  }

  // ---------------------------------------------------------------------------
  // Development suggestions

  const CommunicationSuggestion := "Develop your natural communication skills through public speaking or writing opportunities."
  const AnalyticalSuggestion := "Challenge yourself with puzzles, strategy games or coding projects to strengthen your analytical skills."
  const AssertivenessSuggestion := "Practice being more assertive in expressing your needs and opinions."
  const AdaptabilitySuggestion := "Try stepping out of your comfort zone occasionally to build adaptability."
  const AuditorySuggestion := "Experiment with auditory learning techniques to expand your learning flexibility."
  const VisualSuggestion := "Try incorporating more visual aids into your study routine."
  const SuggestionLimit := 5

  function WeaknessSuggestion(weakness: string): string {
    "Work on improving your " + weakness + " through targeted practice and learning."
  }

  /** At most one suggestion from the personality type; the two groups exclude each other. */
  function PersonalitySuggestions(personality: string): (r: seq<string>)
    ensures |r| <= 1
    ensures personality in ["Linguistic", "Interpersonal"] <==> r == [CommunicationSuggestion]
    ensures personality in ["Logical-Mathematical", "Spatial"] <==> r == [AnalyticalSuggestion]
    ensures personality !in ["Linguistic", "Interpersonal", "Logical-Mathematical", "Spatial"] ==> r == []
  {
    if personality in ["Linguistic", "Interpersonal"] then [CommunicationSuggestion]
    else if personality in ["Logical-Mathematical", "Spatial"] then [AnalyticalSuggestion]
    else []
  }

  /** From the re-decoded DISC field: one if D < 40 (a missing D reads as null, which
      is below 40), one if S > 70 (a missing S is never above 70). */
  function DiscSuggestions(rawDisc: Option<Profile>): (r: seq<string>)
    ensures |r| <= 2
    ensures AssertivenessSuggestion in r <==> NullableLess(RawScore(rawDisc, "D"), 40.0)
    ensures AdaptabilitySuggestion in r <==> NullableGreater(RawScore(rawDisc, "S"), 70.0)
    ensures |r| == (if NullableLess(RawScore(rawDisc, "D"), 40.0) then 1 else 0)
                   + (if NullableGreater(RawScore(rawDisc, "S"), 70.0) then 1 else 0)
    ensures AssertivenessSuggestion in r ==> r[0] == AssertivenessSuggestion
  {
    (if NullableLess(RawScore(rawDisc, "D"), 40.0) then [AssertivenessSuggestion] else [])
    + (if NullableGreater(RawScore(rawDisc, "S"), 70.0) then [AdaptabilitySuggestion] else [])
  }

  function RawScore(raw: Option<Profile>, key: string): Option<real> {
    if raw.Some? && key in raw.value then Some(raw.value[key]) else None
  }

  /** The weaknesses list of the re-decoded SWOT field; a missing one iterates as nothing. */
  function RawWeaknesses(rawSwot: Option<map<string, seq<string>>>): seq<string> {
    if rawSwot.Some? && "weaknesses" in rawSwot.value then rawSwot.value["weaknesses"] else []
  }

  /** One templated suggestion per weakness, in order. */
  function WeaknessSuggestions(weaknesses: seq<string>): (r: seq<string>)
    ensures |r| == |weaknesses|
    ensures forall i :: 0 <= i < |r| ==> r[i] == WeaknessSuggestion(weaknesses[i])
  {
    seq(|weaknesses|, i requires 0 <= i < |weaknesses| => WeaknessSuggestion(weaknesses[i]))
  }

  /** At most one suggestion, for exactly "Visual" or exactly "Auditory". */
  function LearningSuggestions(style: string): (r: seq<string>)
    ensures |r| <= 1
    ensures style == "Visual" <==> r == [AuditorySuggestion]
    ensures style == "Auditory" <==> r == [VisualSuggestion]
    ensures style != "Visual" && style != "Auditory" ==> r == []
  {
    if style == "Visual" then [AuditorySuggestion]
    else if style == "Auditory" then [VisualSuggestion]
    else []
  }

  /** Every candidate, in the page's fixed priority order. */
  function SuggestionCandidates(personality: string, rawDisc: Option<Profile>,
                                rawSwot: Option<map<string, seq<string>>>, style: string): seq<string>
  {
    PersonalitySuggestions(personality) + DiscSuggestions(rawDisc)
    + WeaknessSuggestions(RawWeaknesses(rawSwot)) + LearningSuggestions(style)
  }

  /** The suggestions shown: all candidates are collected first and only then cut to
      the first five, so weaknesses can crowd out the learning-style suggestion. */
  function DevelopmentSuggestions(personality: string, rawDisc: Option<Profile>,
                                  rawSwot: Option<map<string, seq<string>>>, style: string): (r: seq<string>)
    ensures var all := SuggestionCandidates(personality, rawDisc, rawSwot, style);
      && |r| == (if |all| < SuggestionLimit then |all| else SuggestionLimit)
      && r == all[..|r|]
  {
    var all := PersonalitySuggestions(personality) + DiscSuggestions(rawDisc)
      + WeaknessSuggestions(RawWeaknesses(rawSwot)) + LearningSuggestions(style);
    if |all| <= SuggestionLimit then all else all[..SuggestionLimit]
  }

  /** When the suggestions before it already number five, the learning-style
      suggestion is dropped; otherwise it comes last. */
  lemma LearningSuggestionStarved(personality: string, rawDisc: Option<Profile>,
                                  rawSwot: Option<map<string, seq<string>>>, style: string)
    ensures var earlier := PersonalitySuggestions(personality) + DiscSuggestions(rawDisc)
                           + WeaknessSuggestions(RawWeaknesses(rawSwot));
            var r := DevelopmentSuggestions(personality, rawDisc, rawSwot, style);
      && (|earlier| >= SuggestionLimit ==> r == earlier[..SuggestionLimit])
      && (|earlier| < SuggestionLimit ==> r == earlier + LearningSuggestions(style))
  {
    var earlier := PersonalitySuggestions(personality) + DiscSuggestions(rawDisc)
                   + WeaknessSuggestions(RawWeaknesses(rawSwot));
    var all := earlier + LearningSuggestions(style);
    if |earlier| >= SuggestionLimit {
      assert all[..SuggestionLimit] == earlier[..SuggestionLimit];
    }
  }

  /** A stored DISC field that is NULL or lacks D still yields the assertiveness
      suggestion, right after the personality one. */
  lemma MissingDominanceSuggestsAssertiveness(personality: string, rawDisc: Option<Profile>,
                                              rawSwot: Option<map<string, seq<string>>>, style: string)
    requires rawDisc.None? || "D" !in rawDisc.value
    ensures var r := DevelopmentSuggestions(personality, rawDisc, rawSwot, style);
            var p := |PersonalitySuggestions(personality)|;
      p < |r| && r[p] == AssertivenessSuggestion
  {
    assert RawScore(rawDisc, "D").None?;
    var d := DiscSuggestions(rawDisc);
    assert |d| >= 1 && d[0] == AssertivenessSuggestion;
    var all := SuggestionCandidates(personality, rawDisc, rawSwot, style);
    var p := PersonalitySuggestions(personality);
    assert all[|p|] == d[0];
  }

  /** Linguistic, D = 30, S = 80, four weaknesses and "Visual": five suggestions; the
      third and fourth weaknesses and the learning-style suggestion are cut. */
  lemma SuggestionCapExample(w0: string, w1: string, w2: string, w3: string)
    ensures var r := DevelopmentSuggestions("Linguistic", Some(map["D" := 30.0, "S" := 80.0]),
                                            Some(map["weaknesses" := [w0, w1, w2, w3]]), "Visual");
      r == [CommunicationSuggestion, AssertivenessSuggestion, AdaptabilitySuggestion,
            WeaknessSuggestion(w0), WeaknessSuggestion(w1)]
  {
    var disc := Some(map["D" := 30.0, "S" := 80.0]);
    assert RawScore(disc, "D") == Some(30.0);
    assert RawScore(disc, "S") == Some(80.0);
    assert DiscSuggestions(disc) == [AssertivenessSuggestion, AdaptabilitySuggestion];
    assert PersonalitySuggestions("Linguistic") == [CommunicationSuggestion];
  }

  // ---------------------------------------------------------------------------
  // Educational guidance

  const GuidanceOpening := "Based on your profile, you would likely excel in "

  /** Fields of study by ranked key; only these eight lower-case tokens match. */
  const StudyFieldTable: map<string, string> := map[
    "naturalist" := "biology, environmental science, agriculture, or veterinary medicine",
    "intrapersonal" := "philosophy, theology, entrepreneurship, or writing",
    "interpersonal" := "psychology, counseling, teaching, or human resources",
    "bodily" := "athletics, dance, physical therapy, or carpentry",
    "musical" := "music performance, composition, audio engineering, or music therapy",
    "spatial" := "architecture, graphic design, photography, or surgery",
    "logical" := "mathematics, computer science, engineering, or physics",
    "linguistic" := "language arts, literature, journalism, or law"
  ]

  /** The fields that `table` gives the keys that match it, in key order: every
      matching key contributes its field, and nothing else contributes. */
  function MatchedFields(table: map<string, string>, keys: seq<string>): (r: seq<string>)
    ensures |r| <= |keys|
    ensures forall i :: 0 <= i < |keys| && keys[i] in table ==> table[keys[i]] in r
    ensures forall f :: f in r ==> exists i :: 0 <= i < |keys| && keys[i] in table && f == table[keys[i]]
  {
    if keys == [] then []
    else
      var head := if keys[0] in table then [table[keys[0]]] else [];
      var rest := MatchedFields(table, keys[1..]);
      assert forall i :: 1 <= i < |keys| ==> keys[i] == keys[1..][i - 1];
      head + rest
  }

  /** Several fields join as "a, b and c"; one stands alone; none reads as PHP null,
      which prints as nothing. */
  function JoinFields(fields: seq<string>): (r: string)
    ensures fields == [] ==> r == ""
    ensures |fields| == 1 ==> r == fields[0]
    ensures |fields| == 2 ==> r == fields[0] + " and " + fields[1]
  {
    if |fields| > 1 then
      Implode(", ", fields[..|fields| - 1]) + " and " + fields[|fields| - 1]
    else if |fields| == 1 then fields[0]
    else ""
  }

  /** The closing clause by learning style, with a generic one for any other style. */
  const StyleClauses: map<string, string> := map[
    "Visual" := "programs that emphasize diagrams, charts, and visual demonstrations.",
    "Auditory" := "lecture-based programs or those with strong discussion components.",
    "Kinesthetic" := "hands-on programs with labs, fieldwork, or practical applications.",
    "Reading/Writing" := "text-based programs with extensive reading and writing requirements."
  ]

  const GenericStyleClause := "a variety of educational approaches that play to your strengths."

  function StyleClause(style: string): (r: string)
    ensures style in StyleClauses ==> r == StyleClauses[style]
    ensures style !in StyleClauses ==> r == GenericStyleClause
  {
    if style in StyleClauses then StyleClauses[style] else GenericStyleClause
  }

  function StyleSentence(style: string): string {
    "Given your " + ToLower(style) + " learning style, you may benefit from " + StyleClause(style)
  }

  /** The guidance sentence, from the re-decoded MI field; sorting a non-array is a
      PHP type error, modelled as `None`. At most the two top keys contribute. */
  function EducationalGuidance(rawMi: Option<Entries>, style: string): (r: Option<string>)
    ensures r.None? <==> rawMi.None?
    ensures r.Some? ==> var fields := MatchedFields(StudyFieldTable, TopKeys(SortDesc(rawMi.value), 2));
      && |fields| <= 2
      && r.value == GuidanceOpening + JoinFields(fields) + ". " + StyleSentence(style)
  {
    match rawMi
    case None => None
    case Some(mi) =>
      var top := TopKeys(SortDesc(mi), 2);
      var fields := MatchedFields(StudyFieldTable, top);
      Some(GuidanceOpening + JoinFields(fields) + ". " + StyleSentence(style))
  }

  /** The second analyser stores the distribution under its capitalised labels
      ("Logical", "Linguistic", …); the guidance re-decodes that field, so however
      the scores rank, no field of study is named. */
  lemma CapitalisedKeysContributeNothing(mi: Entries)
    requires forall i :: 0 <= i < |mi| ==> mi[i].key in MiLabels
    ensures MatchedFields(StudyFieldTable, TopKeys(SortDesc(mi), 2)) == []
  {
    MiLabelsUnknown();
    TopKeysUnknown(StudyFieldTable, mi, MiLabels);
  }

  /** The first analyser stores the distribution under lower-case keys that the
      table knows, so the two best-ranked intelligences both name a field. */
  lemma StoredKeysContributeFields(mi: Entries)
    requires forall i :: 0 <= i < |mi| ==> mi[i].key in StoredMiKeys
    ensures |MatchedFields(StudyFieldTable, TopKeys(SortDesc(mi), 2))| == if |mi| < 2 then |mi| else 2
  {
    StoredKeysKnown();
    TopKeysKnown(StudyFieldTable, mi, StoredMiKeys);
  }

  lemma TopKeysUnknown(table: map<string, string>, mi: Entries, allowed: seq<string>)
    requires forall i :: 0 <= i < |mi| ==> mi[i].key in allowed
    requires forall i :: 0 <= i < |allowed| ==> allowed[i] !in table
    ensures MatchedFields(table, TopKeys(SortDesc(mi), 2)) == []
  {
    TopKeysFrom(mi, allowed);
    NoKeyMatches(table, TopKeys(SortDesc(mi), 2));
  }

  lemma TopKeysKnown(table: map<string, string>, mi: Entries, allowed: seq<string>)
    requires forall i :: 0 <= i < |mi| ==> mi[i].key in allowed
    requires forall i :: 0 <= i < |allowed| ==> allowed[i] in table
    ensures |MatchedFields(table, TopKeys(SortDesc(mi), 2))| == if |mi| < 2 then |mi| else 2
  {
    TopKeysFrom(mi, allowed);
    AllKeysMatch(table, TopKeys(SortDesc(mi), 2));
  }

  /** The keys at the top of the ranking are keys of the ranked entries. */
  lemma TopKeysFrom(mi: Entries, allowed: seq<string>)
    requires forall i :: 0 <= i < |mi| ==> mi[i].key in allowed
    ensures forall i :: 0 <= i < |TopKeys(SortDesc(mi), 2)| ==> TopKeys(SortDesc(mi), 2)[i] in allowed
  {
    var ranked := SortDesc(mi);
    forall i | 0 <= i < |TopKeys(ranked, 2)|
      ensures TopKeys(ranked, 2)[i] in allowed
    {
      var j := SortedFrom(mi, i);
    }
  }

  lemma StudyFieldKeysLower()
    ensures forall k | k in StudyFieldTable :: |k| > 0 && 'a' <= k[0] <= 'z'
  {
  }

  lemma MiLabelsCapitalised()
    ensures forall i | 0 <= i < |MiLabels| :: |MiLabels[i]| > 0 && 'A' <= MiLabels[i][0] <= 'Z'
  {
  }

  lemma MiLabelsUnknown()
    ensures forall i | 0 <= i < |MiLabels| :: MiLabels[i] !in StudyFieldTable
  {
    StudyFieldKeysLower();
    MiLabelsCapitalised();
  }

  lemma StoredKeysKnown()
    ensures forall i | 0 <= i < |StoredMiKeys| :: StoredMiKeys[i] in StudyFieldTable
  {
  }

  lemma {:induction false} AllKeysMatch(table: map<string, string>, keys: seq<string>)
    requires forall i | 0 <= i < |keys| :: keys[i] in table
    ensures |MatchedFields(table, keys)| == |keys|
  {
    if keys != [] {
      AllKeysMatch(table, keys[1..]);
    }
  }

  lemma {:induction false} NoKeyMatches(table: map<string, string>, keys: seq<string>)
    requires forall i | 0 <= i < |keys| :: keys[i] !in table
    ensures MatchedFields(table, keys) == []
  {
    if keys != [] {
      NoKeyMatches(table, keys[1..]);
    }
  }

  /** When the two best-ranked keys are both known to the field table, the guidance
      names their fields, best first, joined by "and" (the rest of the sentence is
      fixed by `EducationalGuidance`'s contract, which uses `StudyFieldTable`). */
  lemma GuidanceOfTwoKnownKeys(table: map<string, string>, mi: Entries)
    requires |mi| >= 2
    requires SortDesc(mi)[0].key in table && SortDesc(mi)[1].key in table
    ensures JoinFields(MatchedFields(table, TopKeys(SortDesc(mi), 2)))
         == table[SortDesc(mi)[0].key] + " and " + table[SortDesc(mi)[1].key]
  {
    TopTwoFields(table, mi);
    JoinTwo(table[SortDesc(mi)[0].key], table[SortDesc(mi)[1].key]);
  }

  /** When exactly one of the two best-ranked keys is known to the table, the
      guidance names that key's field alone. */
  lemma OneOfTwoKeysKnown(table: map<string, string>, a: string, b: string)
    requires (a in table) != (b in table)
    ensures MatchedFields(table, [a, b]) == [table[if a in table then a else b]]
  {
    assert [a, b][1..] == [b];
    assert [b][1..] == [];
  }

  lemma JoinTwo(a: string, b: string)
    ensures JoinFields([a, b]) == a + " and " + b
  {
  }

  lemma TopTwoFields(table: map<string, string>, mi: Entries)
    requires |mi| >= 2
    requires SortDesc(mi)[0].key in table && SortDesc(mi)[1].key in table
    ensures MatchedFields(table, TopKeys(SortDesc(mi), 2)) == [table[SortDesc(mi)[0].key], table[SortDesc(mi)[1].key]]
  {
    var top := TopKeys(SortDesc(mi), 2);
    assert |top| == 2 && top[0] == SortDesc(mi)[0].key && top[1] == SortDesc(mi)[1].key;
    assert top[1..][1..] == [];
    assert MatchedFields(table, top[1..]) == [table[top[1]]] + MatchedFields(table, top[1..][1..]);
  }

  // ---------------------------------------------------------------------------
  // Career-path guidance

  /** One conditional clause: it applies when the code contains `letter` and the
      personality type is one of `personalities`. */
  datatype CareerRule = CareerRule(letter: char, personalities: seq<string>, text: string)

  const InvestigativeClause := "Your investigative nature combined with analytical strengths make you well-suited for research, data analysis, or technical fields. "
  const ArtisticClause := "Your artistic interests and creative intelligence suggest you would thrive in design, arts, or innovative fields. "
  const SocialClause := "Your social orientation and people skills indicate helping professions would be rewarding for you. "
  const CareerClosing := "Consider exploring careers that combine these interests with your natural abilities for maximum fulfillment."

  const InvestigativeRule := CareerRule('I', ["Logical-Mathematical", "Spatial"], InvestigativeClause)
  const ArtisticRule := CareerRule('A', ["Spatial", "Musical"], ArtisticClause)
  const SocialRule := CareerRule('S', ["Interpersonal", "Intrapersonal"], SocialClause)

  /** The clauses in the order the page tests them. */
  const CareerRules: seq<CareerRule> := [InvestigativeRule, ArtisticRule, SocialRule]

  function CareerOpening(holland: string): string {
    "Your Holland Code of " + holland + " suggests you would be most satisfied in careers that align with these interests. "
  }

  predicate RuleApplies(rule: CareerRule, holland: string, personality: string) {
    rule.letter in holland && personality in rule.personalities
  }

  function Clause(rule: CareerRule, holland: string, personality: string): seq<string> {
    if RuleApplies(rule, holland, personality) then [rule.text] else []
  }

  /** The texts of the rules that apply, in rule order. */
  function AppliedClauses(rules: seq<CareerRule>, holland: string, personality: string): (r: seq<string>)
    ensures |r| <= |rules|
  {
    if rules == [] then []
    else Clause(rules[0], holland, personality) + AppliedClauses(rules[1..], holland, personality)
  }

  function Concat(parts: seq<string>): string {
    if parts == [] then "" else parts[0] + Concat(parts[1..])
  }

  lemma {:induction false} ConcatAppend(x: seq<string>, y: seq<string>)
    ensures Concat(x + y) == Concat(x) + Concat(y)
  {
    if x == [] {
      assert x + y == y;
    } else {
      assert (x + y)[1..] == x[1..] + y;
      ConcatAppend(x[1..], y);
    }
  }

  lemma AppliedOfThree(a: CareerRule, b: CareerRule, c: CareerRule, holland: string, personality: string)
    ensures AppliedClauses([a, b, c], holland, personality)
         == Clause(a, holland, personality) + (Clause(b, holland, personality) + (Clause(c, holland, personality) + []))
  {
    assert [a, b, c][1..] == [b, c];
    assert [b, c][1..] == [c];
    assert [c][1..] == [];
    assert AppliedClauses([c], holland, personality) == Clause(c, holland, personality) + [];
    assert AppliedClauses([b, c], holland, personality)
        == Clause(b, holland, personality) + AppliedClauses([c], holland, personality);
  }

  /** One step of the page's chain of conditional appends. */
  function ApplyRule(g: string, rule: CareerRule, holland: string, personality: string): string {
    if RuleApplies(rule, holland, personality) then g + rule.text else g
  }

  lemma ApplyRuleAppends(g: string, rule: CareerRule, holland: string, personality: string)
    ensures ApplyRule(g, rule, holland, personality) == g + Concat(Clause(rule, holland, personality))
  {
    if RuleApplies(rule, holland, personality) {
      assert [rule.text][1..] == [];
    }
  }

  lemma ChainOfThree(g: string, a: CareerRule, b: CareerRule, c: CareerRule, holland: string, personality: string)
    ensures ApplyRule(ApplyRule(ApplyRule(g, a, holland, personality), b, holland, personality), c, holland, personality)
         == g + Concat(AppliedClauses([a, b, c], holland, personality))
  {
    var ca, cb, cc := Clause(a, holland, personality), Clause(b, holland, personality), Clause(c, holland, personality);
    var g1 := ApplyRule(g, a, holland, personality);
    var g2 := ApplyRule(g1, b, holland, personality);
    ApplyRuleAppends(g, a, holland, personality);
    ApplyRuleAppends(g1, b, holland, personality);
    ApplyRuleAppends(g2, c, holland, personality);
    assert Concat(AppliedClauses([a, b, c], holland, personality)) == Concat(ca) + (Concat(cb) + Concat(cc)) by {
      AppliedOfThree(a, b, c, holland, personality);
      assert cc + [] == cc;
      ConcatAppend(ca, cb + cc);
      ConcatAppend(cb, cc);
    }
  }

  /** The guidance sentence: the fixed opening naming the code, the clauses of the
      rules that apply (investigative, artistic, social), the fixed closing. */
  function CareerPathGuidance(holland: string, personality: string): (r: string)
    ensures r == CareerOpening(holland) + Concat(AppliedClauses(CareerRules, holland, personality)) + CareerClosing
  {
    var g := ApplyRule(ApplyRule(ApplyRule(CareerOpening(holland), InvestigativeRule, holland, personality),
                                 ArtisticRule, holland, personality), SocialRule, holland, personality);
    ChainOfThree(CareerOpening(holland), InvestigativeRule, ArtisticRule, SocialRule, holland, personality);
    g + CareerClosing
  }

  /** A Spatial personality with code "IAS" gets the investigative and artistic
      clauses but not the social one. */
  lemma SpatialIASGuidance()
    ensures AppliedClauses(CareerRules, "IAS", "Spatial") == [InvestigativeClause, ArtisticClause]
  {
    assert "IAS"[0] == 'I' && "IAS"[1] == 'A';
    assert ["Logical-Mathematical", "Spatial"][1] == "Spatial";
    assert ["Spatial", "Musical"][0] == "Spatial";
    assert |"Spatial"| != |"Interpersonal"| && |"Spatial"| != |"Intrapersonal"|;
    assert RuleApplies(InvestigativeRule, "IAS", "Spatial");
    assert RuleApplies(ArtisticRule, "IAS", "Spatial");
    assert !RuleApplies(SocialRule, "IAS", "Spatial");
    AppliedOfThree(InvestigativeRule, ArtisticRule, SocialRule, "IAS", "Spatial");
  }
}

=== FILE: fingerprint.dfy ===
/** The fingerprint features both analysers extract, and the composite metrics
    computed over them: total ridge count, pattern counts and the mean palm angle.

    A feature dictionary is a sequence of named features in insertion order; its
    names are distinct, as the keys of a dictionary are. */
module Fingerprint {
  import opened Numbers

  /** One analysed print, under the key it was submitted with. */
  datatype Feature = Feature(name: string, ridgeCount: nat, orientation: real, circularity: real, patternType: int)

  const Loop := 0
  const Whorl := 1
  const Arch := 2

  predicate KnownPattern(t: int) {
    t == Loop || t == Whorl || t == Arch
  }

  /** The sum of the ridge counts of all features. */
  function TotalRidgeCount(fs: seq<Feature>): (n: nat)
    ensures forall i :: 0 <= i < |fs| ==> fs[i].ridgeCount <= n
  {
    if fs == [] then 0 else fs[0].ridgeCount + TotalRidgeCount(fs[1..])
  }

  /** The total does not depend on how the prints are split: it adds over concatenation. */
  lemma {:induction false} TotalRidgeCountAppend(a: seq<Feature>, b: seq<Feature>)
    ensures TotalRidgeCount(a + b) == TotalRidgeCount(a) + TotalRidgeCount(b)
  {
    if a == [] {
      assert a + b == b;
    } else {
      assert (a + b)[1..] == a[1..] + b;
      TotalRidgeCountAppend(a[1..], b);
    }
  }

  /** The number of features of pattern type `t`. */
  function CountPattern(fs: seq<Feature>, t: int): (n: nat)
    ensures n <= |fs|
    ensures n == 0 <==> forall i :: 0 <= i < |fs| ==> fs[i].patternType != t
  {
    if fs == [] then 0
    else
      (if fs[0].patternType == t then 1 else 0) + CountPattern(fs[1..], t)
  }

  /** The number of features whose pattern type is none of the three. */
  function CountUnknown(fs: seq<Feature>): (n: nat)
    ensures n == 0 <==> forall i :: 0 <= i < |fs| ==> KnownPattern(fs[i].patternType)
  {
    if fs == [] then 0
    else
      (if KnownPattern(fs[0].patternType) then 0 else 1) + CountUnknown(fs[1..])
  }

  /** Every feature is counted exactly once: as a loop, a whorl, an arch, or unknown. */
  lemma {:induction false} CountsPartition(fs: seq<Feature>)
    ensures CountPattern(fs, Loop) + CountPattern(fs, Whorl) + CountPattern(fs, Arch) + CountUnknown(fs) == |fs|
  {
    if fs != [] {
      CountsPartition(fs[1..]);
    }
  }

  datatype Distribution = Distribution(loops: nat, whorls: nat, arches: nat)

  /** The pattern distribution; when every pattern type is one the classifiers
      produce, the three counts add up to the number of prints. */
  function PatternDistribution(fs: seq<Feature>): (d: Distribution)
    ensures d.loops + d.whorls + d.arches <= |fs|
    ensures (forall i :: 0 <= i < |fs| ==> KnownPattern(fs[i].patternType))
            ==> d.loops + d.whorls + d.arches == |fs|
    ensures d.loops == CountPattern(fs, Loop) && d.whorls == CountPattern(fs, Whorl)
            && d.arches == CountPattern(fs, Arch)
  {
    CountsPartition(fs);
    Distribution(CountPattern(fs, Loop), CountPattern(fs, Whorl), CountPattern(fs, Arch))
  }

  const DefaultAtdAngle := 45.0

  /** The ATD angle of a composite: the mean of the given palm angles, which lies
      between the smallest and the largest of them, or 45 when there are none. */
  function AtdAngle(angles: seq<real>): (r: real)
    ensures angles == [] ==> r == DefaultAtdAngle
    ensures angles != [] ==> MinOf(angles) <= r <= MaxOf(angles)
  {
    if angles == [] then DefaultAtdAngle
    else
      MeanBetween(angles, MinOf(angles), MaxOf(angles));
      Mean(angles)
  }

  /** The composite metrics of a set of prints: total ridge count, ATD angle and
      pattern counts. */
  datatype Composite = Composite(tfrc: nat, atdAngle: real, distribution: Distribution)
}

=== FILE: full_model.dfy ===
/** The scoring rules of the second analyser (full_model_based_analysis.py):
    pattern classification, composite counting, the OCEAN profile, career
    recommendations from Holland letter, top intelligences and DISC style, the
    SWOT lists, brain dominance, and the top intelligences and DISC style chosen
    when the report is built.

    Python errors (an index past the end of a list) are modelled as `None`. */
module FullModel {
  import opened Wrappers
  import opened Text
  import opened Numbers
  import opened Ranking
  import opened Fingerprint
  import opened Results

  // ---------------------------------------------------------------------------
  // Fingerprint patterns and composite features

  /** Whorl above circularity 0.75, arch below 0.25, loop in between (bounds included). */
  function PatternType(circularity: real): (t: int)
    ensures KnownPattern(t)
    ensures t == Whorl <==> circularity > 0.75
    ensures t == Arch <==> circularity < 0.25
    ensures t == Loop <==> 0.25 <= circularity <= 0.75
  {
    if circularity > 0.75 then Whorl
    else if circularity < 0.25 then Arch
    else Loop
  }

  /** Whorls are plain and arches tented; a loop is radial for a positive
      orientation and ulnar otherwise. */
  function Subtype(patternType: int, orientation: real): (s: string)
    ensures patternType == Whorl ==> s == "Plain"
    ensures patternType == Arch ==> s == "Tented"
    ensures patternType != Whorl && patternType != Arch ==> (s == "Radial" <==> orientation > 0.0)
    ensures patternType != Whorl && patternType != Arch ==> (s == "Ulnar" <==> orientation <= 0.0)
  {
    if patternType == Whorl then "Plain"
    else if patternType == Arch then "Tented"
    else if orientation > 0.0 then "Radial"
    else "Ulnar"
  }

  /** The orientations of every print whose key contains "palm", in order. */
  function PalmAngles(fs: seq<Feature>): (r: seq<real>)
    ensures |r| <= |fs|
    ensures r == [] <==> forall i :: 0 <= i < |fs| ==> !Substring(fs[i].name, "palm")
  {
    if fs == [] then []
    else
      (if Substring(fs[0].name, "palm") then [fs[0].orientation] else []) + PalmAngles(fs[1..])
  }

  /** TFRC is the total ridge count; the ATD angle is the mean orientation of the
      palm prints (45 without any); the pattern counts add up to the number of prints
      when every print was classified by `PatternType`. */
  function CompositeOf(fs: seq<Feature>): (c: Composite)
    ensures c.tfrc == TotalRidgeCount(fs)
    ensures c.distribution == PatternDistribution(fs)
    ensures PalmAngles(fs) == [] ==> c.atdAngle == DefaultAtdAngle
    ensures PalmAngles(fs) != [] ==> MinOf(PalmAngles(fs)) <= c.atdAngle <= MaxOf(PalmAngles(fs))
    ensures (forall i :: 0 <= i < |fs| ==> fs[i].patternType == PatternType(fs[i].circularity))
            ==> c.distribution.loops + c.distribution.whorls + c.distribution.arches == |fs|
  {
    Composite(TotalRidgeCount(fs), AtdAngle(PalmAngles(fs)), PatternDistribution(fs))
  }

  // ---------------------------------------------------------------------------
  // OCEAN profile

  datatype OceanTier = VeryLow | Low | Average | High | VeryHigh {
    function Name(): string {
      match this
      case VeryLow => "Very Low"
      case Low => "Low"
      case Average => "Average"
      case High => "High"
      case VeryHigh => "Very High"
    }

    function Rank(): nat {
      match this
      case VeryLow => 0
      case Low => 1
      case Average => 2
      case High => 3
      case VeryHigh => 4
    }
  }

  /** Above 75 very high, above 60 high, from 40 average, from 25 low, else very low. */
  function OceanTierOf(score: real): (t: OceanTier)
    ensures t == VeryHigh <==> score > 75.0
    ensures t == High <==> 60.0 < score <= 75.0
    ensures t == Average <==> 40.0 <= score <= 60.0
    ensures t == Low <==> 25.0 <= score < 40.0
    ensures t == VeryLow <==> score < 25.0
  {
    if score > 75.0 then VeryHigh
    else if score > 60.0 then High
    else if score >= 40.0 then Average
    else if score >= 25.0 then Low
    else VeryLow
  }

  /** A higher score never gets a lower tier. */
  lemma OceanTierMonotone(a: real, b: real)
    requires a <= b
    ensures OceanTierOf(a).Rank() <= OceanTierOf(b).Rank()
  {
  }

  const OceanLabels: seq<string> := ["Openness", "Conscientiousness", "Extraversion", "Agreeableness", "Neuroticism"]

  /** One line per trait, "label: score - tier", for as many scores as there are
      labels; `show` is Python's rendering of a float, which is not modelled. */
  function OceanProfile(scores: seq<real>, show: real -> string): (r: seq<string>)
    ensures |r| == if |scores| < 5 then |scores| else 5
    ensures forall i :: 0 <= i < |r| ==>
      r[i] == OceanLabels[i] + ": " + show(scores[i]) + " - " + OceanTierOf(scores[i]).Name()
  {
    var n := if |scores| < 5 then |scores| else 5;
    seq(n, i requires 0 <= i < n => OceanLabels[i] + ": " + show(scores[i]) + " - " + OceanTierOf(scores[i]).Name())
  }

  /** A score above 75 reads "Very High" whatever its rendering. */
  lemma OceanVeryHighLine(scores: seq<real>, show: real -> string, i: nat)
    requires i < |scores| && i < 5 && scores[i] > 75.0
    ensures EndsWith(OceanProfile(scores, show)[i], " - Very High")
  {
    var line := OceanProfile(scores, show)[i];
    var head := OceanLabels[i] + ": " + show(scores[i]);
    assert line == head + (" - " + "Very High");
    assert line[|line| - |" - Very High"|..] == " - Very High";
  }

  // ---------------------------------------------------------------------------
  // Career recommendations

  const HollandJobs: map<char, seq<string>> := map[
    'R' := ["Engineer", "Mechanic", "Pilot"],
    'I' := ["Scientist", "Analyst", "Researcher"],
    'A' := ["Artist", "Designer", "Writer"],
    'S' := ["Teacher", "Counselor", "Coach"],
    'E' := ["Entrepreneur", "Manager", "Politician"],
    'C' := ["Accountant", "Librarian", "Auditor"]
  ]

  const MiJobs: map<string, seq<string>> := map[
    "Logical" := ["Engineer", "Programmer"],
    "Linguistic" := ["Writer", "Journalist"],
    "Naturalistic" := ["Botanist", "Environmentalist"],
    "Spatial" := ["Architect", "Animator"],
    "Kinesthetic" := ["Athlete", "Choreographer"],
    "Musical" := ["Musician", "Composer"],
    "Interpersonal" := ["Therapist", "HR Manager"],
    "Intrapersonal" := ["Philosopher", "Psychologist"]
  ]

  const DiscJobs: map<string, seq<string>> := map[
    "D" := ["Leadership roles", "Strategy"],
    "I" := ["Marketing", "Sales", "Events"],
    "S" := ["Support roles", "Mentorship", "Health care"],
    "C" := ["Auditing", "Legal", "Engineering"]
  ]

  /** The first three items (Python's `[:3]`). */
  function Take3(xs: seq<string>): (r: seq<string>)
    ensures |r| == if |xs| < 3 then |xs| else 3
    ensures r == xs[..|r|]
  {
    if |xs| < 3 then xs else xs[..3]
  }

  function Get<K>(m: map<K, seq<string>>, k: K): (r: seq<string>)
    ensures k in m ==> r == m[k]
    ensures k !in m ==> r == []
  {
    if k in m then m[k] else []
  }

  /** The jobs of each intelligence label in turn; unknown labels add nothing. */
  function MiJobList(labels: seq<string>): (r: seq<string>)
  {
    if labels == [] then [] else Get(MiJobs, labels[0]) + MiJobList(labels[1..])
  }

  /** Label order is kept: the jobs of a concatenation are the concatenated jobs. */
  lemma {:induction false} MiJobListAppend(a: seq<string>, b: seq<string>)
    ensures MiJobList(a + b) == MiJobList(a) + MiJobList(b)
  {
    if a == [] {
      assert a + b == b;
    } else {
      assert (a + b)[1..] == a[1..] + b;
      MiJobListAppend(a[1..], b);
    }
  }

  /** Labels outside the table contribute nothing. */
  lemma {:induction false} MiJobListUnknown(labels: seq<string>)
    requires forall i :: 0 <= i < |labels| ==> labels[i] !in MiJobs
    ensures MiJobList(labels) == []
  {
    if labels != [] {
      MiJobListUnknown(labels[1..]);
    }
  }

  datatype CareerSet = CareerSet(primary: seq<string>, secondary: seq<string>, tertiary: seq<string>)

  /** Primary from the first Holland letter, secondary from the top intelligences
      (in order), tertiary from the DISC style; each at most three. An empty code is
      an error. */
  function CareerRecommendations(code: string, topMi: seq<string>, discStyle: string): (r: Option<CareerSet>)
    ensures r.Some? <==> |code| >= 1
    ensures r.Some? ==> (|r.value.primary| <= 3 && |r.value.secondary| <= 3 && |r.value.tertiary| <= 3)
    ensures r.Some? ==> (r.value.primary == Take3(Get(HollandJobs, code[0]))
                         && r.value.secondary == Take3(MiJobList(topMi))
                         && r.value.tertiary == Take3(Get(DiscJobs, discStyle)))
  {
    if |code| == 0 then None
    else
      Some(CareerSet(Take3(Get(HollandJobs, code[0])), Take3(MiJobList(topMi)), Take3(Get(DiscJobs, discStyle))))
  }

  /** Two known intelligences give the two jobs of the first and the first job of
      the second. */
  lemma SecondaryOfTwoLabels(first: string, second: string)
    requires first in MiJobs && second in MiJobs
    ensures Take3(MiJobList([first, second])) == MiJobs[first] + [MiJobs[second][0]]
  {
    assert forall l :: l in MiJobs ==> |MiJobs[l]| == 2;
    assert [first, second][1..] == [second];
    assert [second][1..] == [];
    assert MiJobList([second]) == MiJobs[second] + [];
    assert MiJobList([first, second]) == MiJobs[first] + MiJobs[second];
  }

  // ---------------------------------------------------------------------------
  // SWOT

  const DiscHighTraits: seq<seq<string>> := [
    ["Assertive", "Goal-Oriented", "Decisive", "Leader"],
    ["Persuasive", "Optimistic", "Enthusiastic", "Talkative"],
    ["Patient", "Reliable", "Loyal", "Calm under pressure"],
    ["Analytical", "Precise", "Detail-Oriented", "Organized"]
  ]

  const DiscLowTraits: seq<seq<string>> := [
    ["Indecisive", "Passive", "Avoids conflict"],
    ["Reserved", "Aloof", "Uninspiring"],
    ["Impatient", "Resistant to change", "Rigid"],
    ["Disorganized", "Impulsive", "Overlooks details"]
  ]

  const DiscLetters: seq<string> := ["D", "I", "S", "C"]

  const SwotOpportunities: seq<string> :=
    ["Build career paths leveraging top MI and DISC strengths", "Enhance interpersonal and emotional skills through training"]
  const SwotThreats: seq<string> :=
    ["Stress under misaligned roles or environments", "Potential burnout due to over-reliance on dominant traits"]

  /** The strengths one DISC score adds: all high traits of its letter from 65 up. */
  function HighTraitsOf(k: nat, score: real): (r: seq<string>)
    requires k < 4
    ensures score >= 65.0 ==> r == DiscHighTraits[k]
    ensures score < 65.0 ==> r == []
  {
    if score >= 65.0 then DiscHighTraits[k] else []
  }

  /** The weaknesses one DISC score adds: all low traits of its letter up to 35. */
  function LowTraitsOf(k: nat, score: real): (r: seq<string>)
    requires k < 4
    ensures score <= 35.0 ==> r == DiscLowTraits[k]
    ensures score > 35.0 ==> r == []
  {
    if score >= 65.0 then [] else if score <= 35.0 then DiscLowTraits[k] else []
  }

  /** The DISC strengths of the scores from position `i` on. */
  function DiscStrengthsFrom(disc: seq<real>, i: nat): seq<string>
    requires |disc| <= 4 && i <= |disc|
    decreases |disc| - i
  {
    if i == |disc| then [] else HighTraitsOf(i, disc[i]) + DiscStrengthsFrom(disc, i + 1)
  }

  /** The DISC weaknesses of the scores from position `i` on. */
  function DiscWeaknessesFrom(disc: seq<real>, i: nat): seq<string>
    requires |disc| <= 4 && i <= |disc|
    decreases |disc| - i
  {
    if i == |disc| then [] else LowTraitsOf(i, disc[i]) + DiscWeaknessesFrom(disc, i + 1)
  }

  /** With four scores, the traits come letter by letter in D, I, S, C order. */
  lemma DiscTraitsInLetterOrder(disc: seq<real>)
    requires |disc| == 4
    ensures DiscStrengthsFrom(disc, 0)
         == HighTraitsOf(0, disc[0]) + (HighTraitsOf(1, disc[1]) + (HighTraitsOf(2, disc[2]) + HighTraitsOf(3, disc[3])))
    ensures DiscWeaknessesFrom(disc, 0)
         == LowTraitsOf(0, disc[0]) + (LowTraitsOf(1, disc[1]) + (LowTraitsOf(2, disc[2]) + LowTraitsOf(3, disc[3])))
  {
    assert DiscStrengthsFrom(disc, 3) == HighTraitsOf(3, disc[3]) by {
      assert DiscStrengthsFrom(disc, 4) == [];
      assert HighTraitsOf(3, disc[3]) + [] == HighTraitsOf(3, disc[3]);
    }
    assert DiscWeaknessesFrom(disc, 3) == LowTraitsOf(3, disc[3]) by {
      assert DiscWeaknessesFrom(disc, 4) == [];
      assert LowTraitsOf(3, disc[3]) + [] == LowTraitsOf(3, disc[3]);
    }
    assert DiscStrengthsFrom(disc, 1) == HighTraitsOf(1, disc[1]) + DiscStrengthsFrom(disc, 2);
    assert DiscWeaknessesFrom(disc, 1) == LowTraitsOf(1, disc[1]) + DiscWeaknessesFrom(disc, 2);
  }

  /** A score strictly between 35 and 65 adds nothing. */
  lemma MiddleScoreAddsNothing(k: nat, score: real)
    requires k < 4 && 35.0 < score < 65.0
    ensures HighTraitsOf(k, score) == [] && LowTraitsOf(k, score) == []
  {
  }

  function Exceptional(name: string): string {
    "Exceptional " + ToLower(name) + " intelligence"
  }

  function Limited(name: string): string {
    "Limited " + ToLower(name) + " capacity"
  }

  /** A strength per ranked intelligence above 75, in ranking order. */
  function ExceptionalItems(ranked: Entries): (r: seq<string>)
    ensures |r| <= |ranked|
    ensures r == [] <==> forall i :: 0 <= i < |ranked| ==> ranked[i].score <= 75.0
    ensures forall i :: 0 <= i < |ranked| && ranked[i].score > 75.0 ==> Exceptional(ranked[i].key) in r
    ensures forall t :: t in r ==>
              exists i :: 0 <= i < |ranked| && ranked[i].score > 75.0 && t == Exceptional(ranked[i].key)
    ensures |ranked| == 1 ==> r == if ranked[0].score > 75.0 then [Exceptional(ranked[0].key)] else []
  {
    if ranked == [] then []
    else
      var head := if ranked[0].score > 75.0 then [Exceptional(ranked[0].key)] else [];
      var rest := ExceptionalItems(ranked[1..]);
      assert forall i :: 1 <= i < |ranked| ==> ranked[i] == ranked[1..][i - 1];
      head + rest
  }

  /** A weakness per ranked intelligence below 40, in ranking order. */
  function LimitedItems(ranked: Entries): (r: seq<string>)
    ensures |r| <= |ranked|
    ensures r == [] <==> forall i :: 0 <= i < |ranked| ==> ranked[i].score >= 40.0
    ensures forall i :: 0 <= i < |ranked| && ranked[i].score < 40.0 ==> Limited(ranked[i].key) in r
    ensures forall t :: t in r ==>
              exists i :: 0 <= i < |ranked| && ranked[i].score < 40.0 && t == Limited(ranked[i].key)
    ensures |ranked| == 1 ==> r == if ranked[0].score < 40.0 then [Limited(ranked[0].key)] else []
  {
    if ranked == [] then []
    else
      var head := if ranked[0].score < 40.0 then [Limited(ranked[0].key)] else [];
      var rest := LimitedItems(ranked[1..]);
      assert forall i :: 1 <= i < |ranked| ==> ranked[i] == ranked[1..][i - 1];
      head + rest
  }

  /** The items keep the ranking order: those of a concatenation are the items of
      the first part followed by those of the second. */
  lemma {:induction false} ExceptionalItemsAppend(a: Entries, b: Entries)
    ensures ExceptionalItems(a + b) == ExceptionalItems(a) + ExceptionalItems(b)
  {
    if a == [] {
      assert a + b == b;
    } else {
      assert (a + b)[0] == a[0];
      assert (a + b)[1..] == a[1..] + b;
      ExceptionalItemsAppend(a[1..], b);
    }
  }

  /** The weaknesses keep the ranking order in the same way. */
  lemma {:induction false} LimitedItemsAppend(a: Entries, b: Entries)
    ensures LimitedItems(a + b) == LimitedItems(a) + LimitedItems(b)
  {
    if a == [] {
      assert a + b == b;
    } else {
      assert (a + b)[0] == a[0];
      assert (a + b)[1..] == a[1..] + b;
      LimitedItemsAppend(a[1..], b);
    }
  }

  /** The intelligences in stable descending order of score: a permutation of the
      labelled scores, ordered by decreasing score, equal scores in label order. */
  function RankedMi(mi: seq<real>): (r: Entries)
    ensures |r| == if |mi| < 8 then |mi| else 8
    ensures multiset(r) == multiset(Zip(MiLabels, mi))
    ensures SortedDesc(r)
    ensures forall v :: WithScore(r, v) == WithScore(Zip(MiLabels, mi), v)
  {
    var z := Zip(MiLabels, mi);
    assert forall v :: WithScore(SortDesc(z), v) == WithScore(z, v) by {
      forall v
        ensures WithScore(SortDesc(z), v) == WithScore(z, v)
      {
        SortDescStable(z, v);
      }
    }
    SortDesc(z)
  }

  /** The SWOT lists: DISC traits, then MI items in ranking order; fixed
      opportunities and threats. More than four DISC scores is an error. */
  function GenerateSwot(disc: seq<real>, mi: seq<real>): (r: Option<Swot>)
    ensures r.Some? <==> |disc| <= 4
    ensures r.Some? ==> (r.value.opportunities == SwotOpportunities && r.value.threats == SwotThreats)
    ensures r.Some? ==> r.value.strengths == DiscStrengthsFrom(disc, 0) + ExceptionalItems(RankedMi(mi))
    ensures r.Some? ==> r.value.weaknesses == DiscWeaknessesFrom(disc, 0) + LimitedItems(RankedMi(mi))
  {
    if |disc| > 4 then None
    else
      var ranked := RankedMi(mi);
      Some(Swot(DiscStrengthsFrom(disc, 0) + ExceptionalItems(ranked), DiscWeaknessesFrom(disc, 0) + LimitedItems(ranked),
                SwotOpportunities, SwotThreats))
  }

  /** The first MI strength names the first intelligence of highest score. */
  lemma FirstExceptionalIsTop(mi: seq<real>)
    requires ExceptionalItems(RankedMi(mi)) != []
    ensures |Zip(MiLabels, mi)| > 0
    ensures ExceptionalItems(RankedMi(mi))[0] == Exceptional(Zip(MiLabels, mi)[ArgMax(Zip(MiLabels, mi))].key)
  {
    var z := Zip(MiLabels, mi);
    var ranked := RankedMi(mi);
    SortDescFirst(z);
    var k := ArgMax(z);
    assert ranked[0] == z[k];
    assert ranked[0].score > 75.0 by {
      var i :| 0 <= i < |ranked| && ranked[i].score > 75.0;
      assert SortedDesc(ranked);
    }
  }

  // ---------------------------------------------------------------------------
  // Brain dominance

  /** Left: D + C + logical + linguistic; right: I + S + interpersonal +
      intrapersonal. The larger side wins; equal sides are "Balanced". */
  function EstimateBrainDominance(disc: seq<real>, mi: seq<real>): (r: Option<string>)
    ensures r.Some? <==> |disc| >= 4 && |mi| >= 8
    ensures r.Some? ==> var left := disc[0] + disc[3] + mi[0] + mi[1];
                        var right := disc[1] + disc[2] + mi[6] + mi[7];
                        && (r.value == "Left" <==> left > right)
                        && (r.value == "Right" <==> right > left)
                        && (r.value == "Balanced" <==> left == right)
  {
    if |disc| < 4 || |mi| < 8 then None
    else
      var left := disc[0] + disc[3] + mi[0] + mi[1];
      var right := disc[1] + disc[2] + mi[6] + mi[7];
      Some(if left > right then "Left" else if right > left then "Right" else "Balanced")
  }

  /** Exchanging the left-side inputs (D, C, logical, linguistic) with the right-side
      ones (I, S, interpersonal, intrapersonal) exchanges "Left" and "Right" and keeps
      "Balanced". */
  lemma EstimateBrainDominanceMirror(d: real, i: real, s: real, c: real, mi: seq<real>)
    requires |mi| >= 8
    ensures var swapped := [mi[6], mi[7]] + mi[2..6] + [mi[0], mi[1]] + mi[8..];
            var before := EstimateBrainDominance([d, i, s, c], mi);
            var after := EstimateBrainDominance([i, d, c, s], swapped);
      && (before == Some("Left") <==> after == Some("Right"))
      && (before == Some("Right") <==> after == Some("Left"))
      && (before == Some("Balanced") <==> after == Some("Balanced"))
  {
    var swapped := [mi[6], mi[7]] + mi[2..6] + [mi[0], mi[1]] + mi[8..];
    assert swapped[0] == mi[6] && swapped[1] == mi[7] && swapped[6] == mi[0] && swapped[7] == mi[1];
  }

  // ---------------------------------------------------------------------------
  // Report building

  /** The two best intelligences by rounded score (`round` is Python's rounding to
      one decimal, which is not modelled). */
  function TopMiLabels(mi: seq<real>, round: real -> real): (r: seq<string>)
    ensures var z := Zip(MiLabels, Rounded(mi, round));
      && |r| == (if |z| < 2 then |z| else 2)
      && (|z| >= 1 ==> r[0] == z[ArgMax(z)].key)
      && (|z| >= 2 ==> r[1] == RunnerUp(z).key)
  {
    var z := Zip(MiLabels, Rounded(mi, round));
    var ranked := SortDesc(z);
    if |z| >= 2 then
      SortDescFirst(z);
      SortDescSecond(z);
      TopKeys(ranked, 2)
    else if |z| == 1 then
      SortDescFirst(z);
      TopKeys(ranked, 2)
    else
      TopKeys(ranked, 2)
  }

  function Rounded(xs: seq<real>, round: real -> real): (r: seq<real>)
    ensures |r| == |xs|
  {
    seq(|xs|, i requires 0 <= i < |xs| => round(xs[i]))
  }

  /** The DISC letter of the first largest score; an empty list, or a largest score
      past the fourth, is an error. */
  function DiscType(disc: seq<real>): (r: Option<string>)
    ensures r.Some? <==> |disc| > 0 && FirstMaxIndex(disc) < 4
    ensures r.Some? ==> r.value == DiscLetters[FirstMaxIndex(disc)]
  {
    if |disc| == 0 then None
    else
      var k := FirstMaxIndex(disc);
      if k < 4 then Some(DiscLetters[k]) else None
  }

  /** With four scores the DISC type is the letter of a largest score, and of the
      first such when several tie. */
  lemma DiscTypeIsFirstMax(disc: seq<real>, k: nat)
    requires |disc| == 4 && k < 4
    requires forall j :: 0 <= j < 4 ==> disc[j] <= disc[k]
    requires forall j :: 0 <= j < k ==> disc[j] < disc[k]
    ensures DiscType(disc) == Some(DiscLetters[k])
  {
    var m := FirstMaxIndex(disc);
    assert disc[m] == disc[k];
  }

  lemma ThreeSecondaryCareers(top: seq<string>)
    requires |top| == 2 && top[0] in MiJobs && top[1] in MiJobs
    ensures |Take3(MiJobList(top))| == 3
  {
    assert top == [top[0], top[1]];
    SecondaryOfTwoLabels(top[0], top[1]);
  }

  /** Every label the ranking returns is one of the eight intelligence labels. */
  lemma TopMiLabelsKnown(mi: seq<real>, round: real -> real)
    ensures forall i :: 0 <= i < |TopMiLabels(mi, round)| ==> TopMiLabels(mi, round)[i] in MiJobs
  {
    var z := Zip(MiLabels, Rounded(mi, round));
    var ranked := SortDesc(z);
    var top := TopMiLabels(mi, round);
    assert forall j :: 0 <= j < 8 ==> MiLabels[j] in MiJobs;
    forall i | 0 <= i < |top|
      ensures top[i] in MiJobs
    {
      assert top[i] == ranked[i].key;
      assert ranked[i] in multiset(z) by {
        assert ranked[i] in multiset(ranked);
      }
      var j :| 0 <= j < |z| && z[j] == ranked[i];
      assert z[j].key == MiLabels[j];
    }
  }

  /** The careers the report stores: primary from the first Holland letter,
      secondary from the jobs of the two best intelligences, tertiary from the
      letter of the first largest DISC score (an error in any of them is an error).
      With at least two intelligence scores there are always three secondary careers. */
  function ReportCareers(code: string, mi: seq<real>, disc: seq<real>, round: real -> real): (r: Option<CareerSet>)
    ensures r.Some? <==> |code| >= 1 && DiscType(disc).Some?
    ensures r.Some? ==> r.value.primary == Take3(Get(HollandJobs, code[0]))
    ensures r.Some? ==> r.value.secondary == Take3(MiJobList(TopMiLabels(mi, round)))
    ensures r.Some? ==> r.value.tertiary == Take3(Get(DiscJobs, DiscLetters[FirstMaxIndex(disc)]))
    ensures r.Some? && |mi| >= 2 ==> |r.value.secondary| == 3
  {
    var dt := DiscType(disc);
    if dt.None? then None
    else
      var top := TopMiLabels(mi, round);
      TopMiLabelsKnown(mi, round);
      if |mi| >= 2 then
        ThreeSecondaryCareers(top);
        CareerRecommendations(code, top, dt.value)
      else
        CareerRecommendations(code, top, dt.value)
  }
}

=== FILE: holland.dfy ===
/** The Holland-code description of the report page.

    The page builds a sentence from the letters of a code such as "RIA", but its
    description table is keyed by the full words ("Realistic", ...), while the
    letters are looked up one at a time. So every code of two or more characters
    yields one fixed sentence and every shorter code the fallback. `CodeDescription`
    models that; `IntendedCodeDescription` runs the same composition over a table
    keyed by the letters, which is what the composition is written for. */
module Holland {
  import opened Text

  const RealisticText := "You prefer work activities that include practical, hands-on problems and solutions. You enjoy working with plants, animals, real-world materials or machinery."
  const InvestigativeText := "You prefer work activities that include observation and systematic investigation of physical, biological or cultural phenomena. You enjoy scientific and intellectual pursuits."
  const ArtisticText := "You prefer work activities that deal with the artistic side of things, such as forms, designs and patterns. You enjoy creative expression and unstructured environments."
  const SocialText := "You prefer work activities that assist others and promote learning and personal development. You enjoy teaching, helping, healing and serving others."
  const EnterprisingText := "You prefer work activities that involve starting up and carrying out projects, especially business ventures. You enjoy leadership, influencing and persuading others."
  const ConventionalText := "You prefer work activities that follow set procedures and routines. You enjoy organizing and working with data in structured environments."

  /** The table as the page declares it: keyed by the interest's full name. */
  const WordTable: map<string, string> := map[
    "Realistic" := RealisticText,
    "Investigative" := InvestigativeText,
    "Artistic" := ArtisticText,
    "Social" := SocialText,
    "Enterprising" := EnterprisingText,
    "Conventional" := ConventionalText
  ]

  /** The same descriptions keyed by the code letters R, I, A, S, E, C. */
  const LetterTable: map<string, string> := map[
    "R" := RealisticText,
    "I" := InvestigativeText,
    "A" := ArtisticText,
    "S" := SocialText,
    "E" := EnterprisingText,
    "C" := ConventionalText
  ]

  const PrimaryFallback := "a " + "combination" + " of " + "areas"
  const SecondaryFallback := "other areas."
  const UniqueFallback := "Your career interests represent a unique combination of preferences."
  /** "Your primary interest is a combination of areas with secondary interests in other areas." */
  const CombinationSentence := "Your primary interest is " + PrimaryFallback + " " + "with secondary interests in " + SecondaryFallback

  /** The lower-cased descriptions of the letters `code[i..]` that `table` knows,
      in order; unknown letters are skipped. */
  function Secondary(table: map<string, string>, code: string, i: nat): (r: seq<string>)
    requires i <= |code|
    ensures |r| <= |code| - i
    decreases |code| - i
  {
    if i == |code| then []
    else
      var letter := code[i..i + 1];
      (if letter in table then [ToLower(table[letter])] else []) + Secondary(table, code, i + 1)
  }

  /** The sentence for a multi-letter code, from the primary text and the secondary list. */
  function Composed(primary: string, secondary: seq<string>): string {
    "Your primary interest is " + ToLower(primary) + " "
    + "with secondary interests in "
    + (if secondary == [] then SecondaryFallback else Implode(", ", secondary) + ".")
  }

  /** The composition of the page, over a given table. */
  function Describe(table: map<string, string>, code: string): string {
    if |code| > 1 then
      var primary := code[..1];
      Composed(if primary in table then table[primary] else PrimaryFallback, Secondary(table, code, 1))
    else if code in table then table[code]
    else UniqueFallback
  }

  lemma {:induction false} NoSecondaryWords(code: string, i: nat)
    requires i <= |code|
    ensures Secondary(WordTable, code, i) == []
    decreases |code| - i
  {
    if i < |code| {
      assert code[i..i + 1] !in WordTable;
      NoSecondaryWords(code, i + 1);
    }
  }

  lemma PrimaryFallbackLower()
    ensures ToLower(PrimaryFallback) == PrimaryFallback
  {
    ToLowerAppend("a " + "combination" + " of ", "areas");
    ToLowerAppend("a " + "combination", " of ");
    ToLowerAppend("a ", "combination");
  }

  /** The description as written: two-valued. */
  function CodeDescription(code: string): (r: string)
    ensures |code| >= 2 ==> r == CombinationSentence
    ensures |code| <= 1 ==> r == UniqueFallback
  {
    if |code| > 1 then
      NoSecondaryWords(code, 1);
      PrimaryFallbackLower();
      assert code[..1] !in WordTable;
      Describe(WordTable, code)
    else
      Describe(WordTable, code)
  }

  /** The description with the table keyed by letters. */
  function IntendedCodeDescription(code: string): (r: string)
    ensures |code| == 1 && IsLetter(code[0]) ==> r == LetterText(code[0])
    ensures |code| <= 1 && code !in LetterTable ==> r == UniqueFallback
  {
    if |code| == 1 && IsLetter(code[0]) then
      LetterKnown(code, 0);
      assert code[0..1] == code;
      Describe(LetterTable, code)
    else
      Describe(LetterTable, code)
  }

  predicate IsLetter(c: char) {
    c == 'R' || c == 'I' || c == 'A' || c == 'S' || c == 'E' || c == 'C'
  }

  predicate AllLetters(code: string) {
    forall i :: 0 <= i < |code| ==> IsLetter(code[i])
  }

  /** The description of one code letter. */
  function LetterText(c: char): string
    requires IsLetter(c)
  {
    match c
    case 'R' => RealisticText
    case 'I' => InvestigativeText
    case 'A' => ArtisticText
    case 'S' => SocialText
    case 'E' => EnterprisingText
    case 'C' => ConventionalText
  }

  lemma LetterKnown(code: string, i: nat)
    requires i < |code| && IsLetter(code[i])
    ensures code[i..i + 1] == [code[i]]
    ensures code[i..i + 1] in LetterTable
    ensures LetterTable[code[i..i + 1]] == LetterText(code[i])
  {
  }

  /** The lower-cased letter descriptions of `code`, in order. */
  function LowerDescriptions(code: string): (r: seq<string>)
    requires AllLetters(code)
    ensures |r| == |code|
  {
    if code == [] then []
    else
      [ToLower(LetterText(code[0]))] + LowerDescriptions(code[1..])
  }

  lemma {:induction false} SecondaryOfLetters(code: string, i: nat)
    requires i <= |code| && AllLetters(code)
    ensures Secondary(LetterTable, code, i) == LowerDescriptions(code[i..])
    decreases |code| - i
  {
    if i < |code| {
      LetterKnown(code, i);
      SecondaryOfLetters(code, i + 1);
      assert code[i..][1..] == code[i + 1..];
      assert code[i..][..1] == code[i..i + 1];
    }
  }

  /** For a code of known letters the corrected description names the first letter's
      interest and lists the others', comma-separated. */
  lemma IntendedComposition(code: string)
    requires |code| >= 2 && AllLetters(code)
    ensures IntendedCodeDescription(code)
         == "Your primary interest is " + ToLower(LetterText(code[0])) + " "
            + "with secondary interests in " + (Implode(", ", LowerDescriptions(code[1..])) + ".")
  {
    var sec := Secondary(LetterTable, code, 1);
    assert code[..1] in LetterTable && LetterTable[code[..1]] == LetterText(code[0]) by {
      LetterKnown(code, 0);
      assert code[..1] == code[0..1];
    }
    assert sec == LowerDescriptions(code[1..]) by {
      SecondaryOfLetters(code, 1);
    }
    assert IntendedCodeDescription(code) == Composed(LetterText(code[0]), sec) by {
      DescribeKnownPrimary(LetterTable, code);
    }
  }

  lemma DescribeKnownPrimary(table: map<string, string>, code: string)
    requires |code| > 1 && code[..1] in table
    ensures Describe(table, code) == Composed(table[code[..1]], Secondary(table, code, 1))
  {
  }

  /** A three-letter code whose letters `table` all knows: the first names the
      primary interest, the other two are listed in order. */
  lemma DescribeThree(table: map<string, string>, code: string)
    requires |code| == 3 && code[..1] in table && code[1..2] in table && code[2..3] in table
    ensures Describe(table, code)
         == "Your primary interest is " + ToLower(table[code[..1]]) + " "
            + "with secondary interests in " + (ToLower(table[code[1..2]]) + ", " + ToLower(table[code[2..3]]) + ".")
  {
    var x, y := ToLower(table[code[1..2]]), ToLower(table[code[2..3]]);
    assert Secondary(table, code, 3) == [];
    assert Secondary(table, code, 2) == [y];
    assert Secondary(table, code, 1) == [x, y];
    ImplodeTwo(", ", x, y);
  }

  /** The worked example "RIA". */
  lemma IntendedRIA()
    ensures IntendedCodeDescription("RIA")
         == "Your primary interest is " + ToLower(RealisticText) + " "
            + "with secondary interests in " + (ToLower(InvestigativeText) + ", " + ToLower(ArtisticText) + ".")
  {
    var code := "RIA";
    assert code[..1] == "R" && code[1..2] == "I" && code[2..3] == "A";
    DescribeThree(LetterTable, code);
  }

  /** The discrepancy: for "RIA" the page prints the fixed sentence, not the composed one. */
  lemma WordKeyedTableMissesLetters()
    ensures CodeDescription("RIA") == CombinationSentence
    ensures CodeDescription("RIA") != IntendedCodeDescription("RIA")
  {
    IntendedRIA();
  }
}

=== FILE: numbers.dfy ===
/** Sums, means and extremes of sequences of reals (Python's `sum`, `np.mean`,
    `min` and `max` on lists of numbers). */
module Numbers {

  function Sum(xs: seq<real>): real {
    if xs == [] then 0.0 else xs[0] + Sum(xs[1..])
  }

  /** The arithmetic mean. */
  function Mean(xs: seq<real>): real
    requires |xs| > 0
  {
    Sum(xs) / (|xs| as real)
  }

  lemma {:induction false} SumBounds(xs: seq<real>, lo: real, hi: real)
    requires forall i :: 0 <= i < |xs| ==> lo <= xs[i] <= hi
    ensures lo * (|xs| as real) <= Sum(xs) <= hi * (|xs| as real)
  {
    if xs != [] {
      SumBounds(xs[1..], lo, hi);
    }
  }

  /** The mean lies within any bounds of the values. */
  lemma MeanBetween(xs: seq<real>, lo: real, hi: real)
    requires |xs| > 0
    requires forall i :: 0 <= i < |xs| ==> lo <= xs[i] <= hi
    ensures lo <= Mean(xs) <= hi
  {
    SumBounds(xs, lo, hi);
    var n := |xs| as real;
    assert lo * n <= Sum(xs) <= hi * n;
    assert lo == (lo * n) / n && hi == (hi * n) / n;
  }

  /** The mean of identical values is that value. */
  lemma MeanOfConstant(xs: seq<real>, v: real)
    requires |xs| > 0
    requires forall i :: 0 <= i < |xs| ==> xs[i] == v
    ensures Mean(xs) == v
  {
    MeanBetween(xs, v, v);
  }

  /** The least value. */
  function MinOf(xs: seq<real>): (m: real)
    requires |xs| > 0
    ensures forall i :: 0 <= i < |xs| ==> m <= xs[i]
    ensures exists i :: 0 <= i < |xs| && xs[i] == m
  {
    if |xs| == 1 then xs[0]
    else
      var rest := MinOf(xs[1..]);
      assert forall i :: 1 <= i < |xs| ==> xs[i] == xs[1..][i - 1];
      if xs[0] <= rest then xs[0] else rest
  }

  /** The greatest value. */
  function MaxOf(xs: seq<real>): (m: real)
    requires |xs| > 0
    ensures forall i :: 0 <= i < |xs| ==> xs[i] <= m
    ensures exists i :: 0 <= i < |xs| && xs[i] == m
  {
    if |xs| == 1 then xs[0]
    else
      var rest := MaxOf(xs[1..]);
      assert forall i :: 1 <= i < |xs| ==> xs[i] == xs[1..][i - 1];
      if xs[0] >= rest then xs[0] else rest
  }

  /** The position of the first largest value (numpy's `argmax`). */
  function FirstMaxIndex(xs: seq<real>): (k: nat)
    requires |xs| > 0
    ensures k < |xs|
    ensures forall j :: 0 <= j < |xs| ==> xs[j] <= xs[k]
    ensures forall j :: 0 <= j < k ==> xs[j] < xs[k]
  {
    if |xs| == 1 then 0
    else
      var k := FirstMaxIndex(xs[1..]);
      if xs[0] >= xs[1..][k] then 0 else k + 1
  }
}

=== FILE: ranking.dfy ===
/** Ordered score tables and their stable descending sort.

    PHP's `arsort` (stable since PHP 8.0) on an associative array of scores and
    Python's `sorted(pairs, key=score, reverse=True)` both reorder key/score pairs
    by decreasing score and keep the original order among equal scores. Both are
    modelled by the one function `SortDesc`, which is proved equal to an
    independent reference: repeatedly selecting the first entry of maximum score. */
module Ranking {

  /** One key/score pair of an ordered PHP array or of a Python list of tuples. */
  datatype Entry = Entry(key: string, score: real)

  type Entries = seq<Entry>

  ghost predicate SortedDesc(s: Entries) {
    forall i, j :: 0 <= i < j < |s| ==> s[i].score >= s[j].score
  }

  /** The entries of `s` whose score is exactly `v`, in their order in `s`.
      A sort is stable iff it leaves every such subsequence unchanged. */
  function WithScore(s: Entries, v: real): (r: Entries)
    ensures |r| <= |s|
  {
    if s == [] then []
    else (if s[0].score == v then [s[0]] else []) + WithScore(s[1..], v)
  }

  /** Places `x` in front of the first entry of `t` that does not score strictly higher. */
  function Insert(x: Entry, t: Entries): (r: Entries)
    ensures |r| == |t| + 1
    ensures multiset(r) == multiset(t) + multiset{x}
  {
    if t == [] || t[0].score <= x.score then [x] + t
    else
      assert t == [t[0]] + t[1..];
      [t[0]] + Insert(x, t[1..])
  }

  lemma {:induction false} InsertSorted(x: Entry, t: Entries)
    requires SortedDesc(t)
    ensures SortedDesc(Insert(x, t))
  {
    if t != [] && t[0].score > x.score {
      var rest := Insert(x, t[1..]);
      InsertSorted(x, t[1..]);
      forall i | 0 <= i < |rest|
        ensures rest[i].score <= t[0].score
      {
        assert rest[i] in multiset(rest);
        if rest[i] != x {
          assert rest[i] in multiset(t[1..]);
          var j :| 0 <= j < |t[1..]| && t[1..][j] == rest[i];
          assert t[j + 1] == rest[i];
        }
      }
      assert Insert(x, t) == [t[0]] + rest;
    }
  }

  /** The stable descending sort: a permutation, ordered by decreasing score. */
  function SortDesc(s: Entries): (r: Entries)
    ensures |r| == |s|
    ensures multiset(r) == multiset(s)
    ensures SortedDesc(r)
  {
    if s == [] then []
    else
      assert s == [s[0]] + s[1..];
      InsertSorted(s[0], SortDesc(s[1..]));
      Insert(s[0], SortDesc(s[1..]))
  }

  /** The position of the first entry of maximal score (numpy's `argmax`). */
  function ArgMax(s: Entries): (k: nat)
    requires |s| > 0
    ensures k < |s|
    ensures forall j :: 0 <= j < |s| ==> s[j].score <= s[k].score
    ensures forall j :: 0 <= j < k ==> s[j].score < s[k].score
  {
    if |s| == 1 then 0
    else
      var k := ArgMax(s[1..]);
      if s[0].score >= s[1..][k].score then 0 else k + 1
  }

  function RemoveAt(s: Entries, k: nat): (r: Entries)
    requires k < |s|
    ensures |r| == |s| - 1
  {
    s[..k] + s[k + 1..]
  }

  /** The runner-up: the first entry of maximal score once the first maximal entry
      is taken out. */
  function RunnerUp(s: Entries): Entry
    requires |s| > 1
  {
    RemoveAt(s, ArgMax(s))[ArgMax(RemoveAt(s, ArgMax(s)))]
  }

  lemma RemoveAtIndex(s: Entries, k: nat, i: nat)
    requires k < |s| && i < |s| - 1
    ensures RemoveAt(s, k)[i] == s[if i < k then i else i + 1]
  {
  }

  /** Reference ordering: take the first maximal entry, then order the rest the same way. */
  function SelectionOrder(s: Entries): (r: Entries)
    ensures |r| == |s|
    decreases |s|
  {
    if s == [] then []
    else
      var k := ArgMax(s);
      [s[k]] + SelectionOrder(RemoveAt(s, k))
  }

  /** Python's `zip(labels, scores)`: the pairs up to the shorter of the two. */
  function Zip(labels: seq<string>, scores: seq<real>): (r: Entries)
    ensures |r| == if |labels| < |scores| then |labels| else |scores|
    ensures forall i :: 0 <= i < |r| ==> r[i].key == labels[i] && r[i].score == scores[i]
  {
    seq(if |labels| < |scores| then |labels| else |scores|, i requires 0 <= i < |labels| && i < |scores| => Entry(labels[i], scores[i]))
  }

  /** The keys of the first `n` entries (PHP `array_keys(array_slice($a, 0, n))`). */
  function TopKeys(s: Entries, n: nat): (r: seq<string>)
    ensures |r| == if |s| < n then |s| else n
    ensures forall i :: 0 <= i < |r| ==> r[i] == s[i].key
  {
    if |s| == 0 || n == 0 then [] else [s[0].key] + TopKeys(s[1..], n - 1)
  }

  // ---------------------------------------------------------------------------
  // Stability

  lemma {:induction false} WithScoreAppend(a: Entries, b: Entries, v: real)
    ensures WithScore(a + b, v) == WithScore(a, v) + WithScore(b, v)
  {
    if a == [] {
      assert a + b == b;
    } else {
      var h := if a[0].score == v then [a[0]] else [];
      assert a + b == [a[0]] + (a[1..] + b);
      WithScoreCons(a[0], a[1..] + b, v);
      WithScoreAppend(a[1..], b, v);
      assert a == [a[0]] + a[1..];
      WithScoreCons(a[0], a[1..], v);
    }
  }

  lemma {:induction false} InsertWithScore(x: Entry, t: Entries, v: real)
    ensures WithScore(Insert(x, t), v) == (if x.score == v then [x] else []) + WithScore(t, v)
  {
    if t == [] || t[0].score <= x.score {
      WithScoreCons(x, t, v);
    } else {
      var rest := Insert(x, t[1..]);
      assert Insert(x, t) == [t[0]] + rest;
      InsertWithScore(x, t[1..], v);
      WithScoreCons(t[0], rest, v);
      assert t == [t[0]] + t[1..];
      WithScoreCons(t[0], t[1..], v);
      if x.score == v {
        assert t[0].score != v;
      }
    }
  }

  /** `SortDesc` is stable: the entries of any one score keep their relative order. */
  lemma {:induction false} SortDescStable(s: Entries, v: real)
    ensures WithScore(SortDesc(s), v) == WithScore(s, v)
  {
    if s != [] {
      InsertWithScore(s[0], SortDesc(s[1..]), v);
      SortDescStable(s[1..], v);
    }
  }

  // ---------------------------------------------------------------------------
  // A stable descending order is unique

  lemma {:induction false} WithScoreNonEmpty(s: Entries, i: nat)
    requires i < |s|
    ensures WithScore(s, s[i].score) != []
  {
    if i > 0 {
      WithScoreNonEmpty(s[1..], i - 1);
    }
  }

  lemma {:induction false} WithScoreMember(s: Entries, v: real, i: nat)
    requires i < |WithScore(s, v)|
    ensures WithScore(s, v)[i] in s
    ensures WithScore(s, v)[i].score == v
  {
    if s[0].score == v {
      if i > 0 {
        WithScoreMember(s[1..], v, i - 1);
      }
    } else {
      WithScoreMember(s[1..], v, i);
    }
  }

  lemma {:induction false} WithScoreHead(s: Entries, k: nat)
    requires k < |s|
    requires forall j :: 0 <= j < k ==> s[j].score != s[k].score
    ensures WithScore(s, s[k].score) != []
    ensures WithScore(s, s[k].score)[0] == s[k]
  {
    if k > 0 {
      WithScoreHead(s[1..], k - 1);
    }
  }

  /** Two descending orders that agree on every score's subsequence are equal. */
  lemma {:induction false} StableOrderUnique(a: Entries, b: Entries)
    requires SortedDesc(a) && SortedDesc(b)
    requires forall v :: WithScore(a, v) == WithScore(b, v)
    ensures a == b
    decreases |a|
  {
    if a != [] {
      WithScoreNonEmpty(a, 0);
    }
    if b != [] {
      WithScoreNonEmpty(b, 0);
    }
    if a == [] || b == [] {
      // an empty side forces the other to be empty: its head's score would be missing
    } else {
      var m := a[0].score;
      WithScoreNonEmpty(a, 0);
      WithScoreMember(b, m, 0);
      assert b[0].score >= m;
      WithScoreNonEmpty(b, 0);
      WithScoreMember(a, b[0].score, 0);
      assert m >= b[0].score;
      WithScoreHead(a, 0);
      WithScoreHead(b, 0);
      assert a[0] == b[0];
      forall v
        ensures WithScore(a[1..], v) == WithScore(b[1..], v)
      {
        var h := if m == v then [a[0]] else [];
        assert WithScore(a, v) == h + WithScore(a[1..], v);
        assert WithScore(b, v) == h + WithScore(b[1..], v);
        assert WithScore(a[1..], v) == WithScore(a, v)[|h|..];
        assert WithScore(b[1..], v) == WithScore(b, v)[|h|..];
      }
      StableOrderUnique(a[1..], b[1..]);
      assert a == [a[0]] + a[1..];
      assert b == [b[0]] + b[1..];
    }
  }

  /** Sorting puts the first maximal entry first and sorts the remainder. */
  lemma SortDescPeel(s: Entries)
    requires |s| > 0
    ensures SortDesc(s) == [s[ArgMax(s)]] + SortDesc(RemoveAt(s, ArgMax(s)))
  {
    var k := ArgMax(s);
    var c := [s[k]] + SortDesc(RemoveAt(s, k));
    PeeledSorted(s, k);
    forall v
      ensures WithScore(SortDesc(s), v) == WithScore(c, v)
    {
      SortDescStable(s, v);
      PeeledWithScore(s, k, v);
    }
    StableOrderUnique(SortDesc(s), c);
  }

  lemma PeeledSorted(s: Entries, k: nat)
    requires |s| > 0 && k == ArgMax(s)
    ensures SortedDesc([s[k]] + SortDesc(RemoveAt(s, k)))
  {
    var rest := RemoveAt(s, k);
    var sr := SortDesc(rest);
    forall j | 0 <= j < |sr|
      ensures sr[j].score <= s[k].score
    {
      var i := SortedFrom(rest, j);
      RemoveAtIndex(s, k, i);
    }
    ConsSorted(s[k], sr);
  }

  /** Every entry of the sorted sequence comes from some position of the input. */
  lemma SortedFrom(s: Entries, j: nat) returns (i: nat)
    requires j < |s|
    ensures i < |s| && s[i] == SortDesc(s)[j]
  {
    var r := SortDesc(s);
    assert r[j] in multiset(r);
    assert r[j] in multiset(s);
    i :| 0 <= i < |s| && s[i] == r[j];
  }

  lemma ConsSorted(x: Entry, t: Entries)
    requires SortedDesc(t)
    requires forall j :: 0 <= j < |t| ==> t[j].score <= x.score
    ensures SortedDesc([x] + t)
  {
    var c := [x] + t;
    forall i, j | 0 <= i < j < |c|
      ensures c[i].score >= c[j].score
    {
      assert c[j] == t[j - 1];
      if i > 0 {
        assert c[i] == t[i - 1];
      }
    }
  }

  lemma WithScoreCons(x: Entry, t: Entries, v: real)
    ensures WithScore([x] + t, v) == (if x.score == v then [x] else []) + WithScore(t, v)
  {
    assert ([x] + t)[0] == x;
    assert ([x] + t)[1..] == t;
  }

  lemma PeeledWithScore(s: Entries, k: nat, v: real)
    requires |s| > 0 && k == ArgMax(s)
    ensures WithScore(s, v) == WithScore([s[k]] + SortDesc(RemoveAt(s, k)), v)
  {
    WithScoreRemoveMax(s, k, v);
    WithScoreCons(s[k], SortDesc(RemoveAt(s, k)), v);
    SortDescStable(RemoveAt(s, k), v);
  }

  /** Taking out an entry that beats everything before it moves it, if it has
      score `v`, to the front of the entries of score `v`. */
  lemma WithScoreRemoveMax(s: Entries, k: nat, v: real)
    requires k < |s|
    requires forall j | 0 <= j < k :: s[j].score < s[k].score
    ensures WithScore(s, v) == (if s[k].score == v then [s[k]] else []) + WithScore(RemoveAt(s, k), v)
  {
    var pre, post := s[..k], s[k + 1..];
    assert s == pre + [s[k]] + post;
    assert RemoveAt(s, k) == pre + post;
    if s[k].score == v {
      assert forall j | 0 <= j < |pre| :: pre[j].score < v;
      WithScoreBelow(pre, v);
    }
    WithScoreAround(pre, s[k], post, v);
  }

  lemma WithScoreAround(pre: Entries, x: Entry, post: Entries, v: real)
    ensures WithScore(pre + [x] + post, v)
         == WithScore(pre, v) + ((if x.score == v then [x] else []) + WithScore(post, v))
    ensures WithScore(pre + post, v) == WithScore(pre, v) + WithScore(post, v)
  {
    assert pre + [x] + post == pre + ([x] + post);
    WithScoreAppend(pre, [x] + post, v);
    WithScoreCons(x, post, v);
    WithScoreAppend(pre, post, v);
  }

  lemma {:induction false} WithScoreBelow(s: Entries, v: real)
    requires forall j :: 0 <= j < |s| ==> s[j].score < v
    ensures WithScore(s, v) == []
  {
    if s != [] {
      WithScoreBelow(s[1..], v);
    }
  }

  /** The stable descending sort is the same as repeated first-maximum selection. */
  lemma {:induction false} SortDescIsSelectionOrder(s: Entries)
    ensures SortDesc(s) == SelectionOrder(s)
    decreases |s|
  {
    if s != [] {
      SortDescPeel(s);
      SortDescIsSelectionOrder(RemoveAt(s, ArgMax(s)));
    }
  }

  /** The top entry after sorting is the first entry of maximal score. */
  lemma SortDescFirst(s: Entries)
    requires |s| > 0
    ensures SortDesc(s)[0] == s[ArgMax(s)]
  {
    SortDescPeel(s);
  }

  /** The runner-up after sorting is the first maximal entry once the winner is removed. */
  lemma SortDescSecond(s: Entries)
    requires |s| > 1
    ensures SortDesc(s)[1] == RunnerUp(s)
  {
    var rest := RemoveAt(s, ArgMax(s));
    SortDescPeel(s);
    SortDescFirst(rest);
  }

  /** The first two entries of a ranking, or all of a shorter one (`[:2]`). */
  function Leading(ranked: Entries): Entries {
    ranked[..if |ranked| < 2 then |ranked| else 2]
  }

  /** With two or more entries, the leading two are the winner and the runner-up,
      which scores no higher. */
  lemma LeadingTwo(all: Entries)
    requires |all| >= 2
    ensures RunnerUp(all).score <= all[ArgMax(all)].score
    ensures Leading(SortDesc(all)) == [all[ArgMax(all)], RunnerUp(all)]
  {
    var ranked := SortDesc(all);
    SortDescFirst(all);
    SortDescSecond(all);
    LeadingOfTwo(ranked);
    assert ranked[1].score <= ranked[0].score;
  }

  lemma LeadingOfTwo(ranked: Entries)
    requires |ranked| >= 2
    ensures Leading(ranked) == [ranked[0], ranked[1]]
  {
  }
}

=== FILE: results.dfy ===
/** Shapes that both analysers share and the report page reads back: the
    intelligence labels and keys, and the SWOT record. */
module Results {

  /** The eight intelligences in the order of the predicted score vector, as both
      analysers label them. */
  const MiLabels: seq<string> :=
    ["Logical", "Linguistic", "Naturalistic", "Spatial", "Kinesthetic", "Musical", "Interpersonal", "Intrapersonal"]

  /** The keys under which the first analyser stores the intelligence distribution. */
  const StoredMiKeys: seq<string> :=
    ["linguistic", "logical", "spatial", "musical", "bodily", "interpersonal", "intrapersonal", "naturalist"]

  datatype Swot = Swot(strengths: seq<string>, weaknesses: seq<string>,
                       opportunities: seq<string>, threats: seq<string>)
}

=== FILE: tables.dfy ===
/** The report page's lookup tables. Each lookup is total: a key outside its table
    yields that table's fixed fallback, never an empty text or list. */
module Tables {
  import opened Buckets

  // ---------------------------------------------------------------------------
  // Personality type

  const PersonalityDescriptions: map<string, string> := map[
    "Linguistic" := "You have highly developed verbal skills and sensitivity to the sounds, meanings and rhythms of words. You think in words rather than pictures.",
    "Logical-Mathematical" := "You have the ability to think conceptually and abstractly, and capacity to discern logical or numerical patterns. You tend to think in numbers and patterns.",
    "Spatial" := "You have the capacity to think in images and pictures, to visualize accurately and abstractly. You tend to think in pictures and images.",
    "Musical" := "You have the ability to produce and appreciate rhythm, pitch and timbre. You think in sounds, rhythms and melodies.",
    "Bodily-Kinesthetic" := "You have the ability to control one's body movements and to handle objects skillfully. You tend to think in movements and physical sensations.",
    "Interpersonal" := "You have the capacity to detect and respond appropriately to the moods, motivations and desires of others. You think in interactions with others.",
    "Intrapersonal" := "You have the capacity to be self-aware and in tune with inner feelings, values, beliefs and thinking processes. You think in reflections and self-analysis.",
    "Naturalistic" := "You have the ability to recognize and categorize plants, animals and other objects in nature. You think in natural patterns and ecosystems."
  ]

  const PersonalityFallback := "This personality type combines several intelligence strengths."

  function PersonalityDescription(personality: string): (r: string)
    ensures r != ""
    ensures personality in PersonalityDescriptions ==> r == PersonalityDescriptions[personality]
    ensures r == PersonalityFallback <==> personality !in PersonalityDescriptions
  {
    if personality in PersonalityDescriptions then PersonalityDescriptions[personality] else PersonalityFallback
  }

  const PersonalityTraitLists: map<string, seq<string>> := map[
    "Linguistic" := [
      "Excellent at reading, writing and telling stories",
      "Good at memorizing names, places, dates and trivia",
      "Learns best by saying, hearing and seeing words"],
    "Logical-Mathematical" := [
      "Excellent at math, reasoning, logic and problem solving",
      "Good at scientific thinking and investigation",
      "Learns best by categorizing, classifying and working with patterns"],
    "Spatial" := [
      "Excellent at visualizing and mentally manipulating objects",
      "Good at reading maps, charts and solving puzzles",
      "Learns best by visualizing, dreaming and working with colors/pictures"],
    "Musical" := [
      "Excellent at singing, picking up sounds and remembering melodies",
      "Good at noticing pitches, rhythms and musical patterns",
      "Learns best by rhythm, melody and music"],
    "Bodily-Kinesthetic" := [
      "Excellent at physical activities like sports, dance and acting",
      "Good at hands-on learning and crafts",
      "Learns best by touching, moving and interacting with space"],
    "Interpersonal" := [
      "Excellent at understanding people and communication",
      "Good at mediating conflicts and building relationships",
      "Learns best by sharing, comparing and cooperating"],
    "Intrapersonal" := [
      "Excellent at self-reflection and awareness of inner feelings",
      "Good at setting goals and understanding self",
      "Learns best by working alone and self-paced instruction"],
    "Naturalistic" := [
      "Excellent at understanding nature and making distinctions",
      "Good at identifying flora and fauna",
      "Learns best by working in nature and exploring things"]
  ]

  const PersonalityTraitsFallback := ["Combination of multiple intelligence traits"]

  /** Three traits for a known type, the single fallback trait otherwise. */
  function PersonalityTraits(personality: string): (r: seq<string>)
    ensures |r| == if personality in PersonalityTraitLists then 3 else 1
    ensures personality !in PersonalityTraitLists ==> r == PersonalityTraitsFallback
    ensures forall i :: 0 <= i < |r| ==> r[i] != ""
  {
    if personality in PersonalityTraitLists then PersonalityTraitLists[personality] else PersonalityTraitsFallback
  }

  // ---------------------------------------------------------------------------
  // DISC

  datatype DiscLetter = D | I | S | C

  const DLowText := "You tend to be cooperative, patient and accommodating rather than assertive."
  const DMediumText := "You have a balanced approach between being assertive and cooperative."
  const DHighText := "You are direct, decisive and like to take charge of situations."
  const ILowText := "You tend to be more reserved and task-focused rather than outgoing."
  const IMediumText := "You balance social interaction with periods of reflection."
  const IHighText := "You are outgoing, enthusiastic and enjoy social interactions."
  const SLowText := "You prefer change and variety over stability and routine."
  const SMediumText := "You balance a need for stability with adaptability."
  const SHighText := "You value stability, cooperation and consistent routines."
  const CLowText := "You are more flexible and tolerant of imperfections."
  const CMediumText := "You balance attention to detail with big-picture thinking."
  const CHighText := "You value accuracy, quality and attention to details."

  /** The 4 x 3 matrix of DISC descriptions, by letter and level. */
  function DiscText(letter: DiscLetter, level: Tier): string {
    match letter
    case D => (match level case Low => DLowText case Medium => DMediumText case High => DHighText)
    case I => (match level case Low => ILowText case Medium => IMediumText case High => IHighText)
    case S => (match level case Low => SLowText case Medium => SMediumText case High => SHighText)
    case C => (match level case Low => CLowText case Medium => CMediumText case High => CHighText)
  }

  /** The description of one DISC letter at a score; the same thresholds for all
      letters, and the three texts of a letter are distinct, so the text reveals
      the tier. */
  function DiscDescription(letter: DiscLetter, score: real): (r: string)
    ensures r == DiscText(letter, Low) <==> score < 40.0
    ensures r == DiscText(letter, Medium) <==> 40.0 <= score < 70.0
    ensures r == DiscText(letter, High) <==> score >= 70.0
  {
    DiscTextDistinct(letter);
    DiscText(letter, DiscLevel(score))
  }

  lemma DiscTextDistinct(letter: DiscLetter)
    ensures DiscText(letter, Low) != DiscText(letter, Medium)
    ensures DiscText(letter, Low) != DiscText(letter, High)
    ensures DiscText(letter, Medium) != DiscText(letter, High)
  {
    // texts of one letter differ in length, except the low and high S texts,
    // whose second-to-last characters differ
    assert DiscText(DiscLetter.S, Low)[55] != DiscText(DiscLetter.S, High)[55];
  }

  // ---------------------------------------------------------------------------
  // Learning style

  const LearningStyleDescriptions: map<string, string> := map[
    "Visual" := "You learn best through seeing. Charts, diagrams, illustrations, and other visual tools help you understand and remember information.",
    "Auditory" := "You learn best through listening. Lectures, discussions, and other auditory methods are most effective for your learning.",
    "Kinesthetic" := "You learn best through moving, doing, and touching. Hands-on activities and physical experiences help you understand concepts.",
    "Reading/Writing" := "You learn best through reading and writing. You prefer to see information in written form and benefit from taking notes."
  ]

  const LearningStyleFallback := "You have a balanced combination of learning style preferences."

  function LearningStyleDescription(style: string): (r: string)
    ensures r != ""
    ensures style in LearningStyleDescriptions ==> r == LearningStyleDescriptions[style]
    ensures r == LearningStyleFallback <==> style !in LearningStyleDescriptions
  {
    if style in LearningStyleDescriptions then LearningStyleDescriptions[style] else LearningStyleFallback
  }

  const LearningStrategyLists: map<string, seq<string>> := map[
    "Visual" := [
      "Use color coding to organize notes and ideas",
      "Create mind maps or diagrams to visualize concepts",
      "Watch videos or demonstrations of the material"],
    "Auditory" := [
      "Record lectures and listen to them again",
      "Participate in group discussions about the material",
      "Explain concepts out loud to yourself or others"],
    "Kinesthetic" := [
      "Use physical objects or models to learn concepts",
      "Take frequent breaks to move around while studying",
      "Create hands-on projects to demonstrate learning"],
    "Reading/Writing" := [
      "Rewrite notes in your own words",
      "Create outlines and written summaries of material",
      "Read textbooks and write responses or analyses"]
  ]

  const LearningStrategiesFallback := [
    "Combine different learning methods to find what works best",
    "Experiment with visual, auditory, and kinesthetic approaches",
    "Use a variety of study techniques"]

  /** Always three strategies; the fallback three for an unknown style. */
  function LearningStrategies(style: string): (r: seq<string>)
    ensures |r| == 3
    ensures style in LearningStrategyLists ==> r == LearningStrategyLists[style]
    ensures r == LearningStrategiesFallback <==> style !in LearningStrategyLists
  {
    if style in LearningStrategyLists then LearningStrategyLists[style] else LearningStrategiesFallback
  }

  // ---------------------------------------------------------------------------
  // Brain dominance

  const BrainDominanceDescriptions: map<string, string> := map[
    "Left Brain" := "You tend to be more logical, analytical, and detail-oriented. You prefer structured, sequential learning and are good with numbers and language.",
    "Right Brain" := "You tend to be more creative, intuitive, and big-picture oriented. You prefer holistic, visual learning and are good with patterns and spatial reasoning.",
    "Balanced" := "You have a good balance between logical and creative thinking. You can adapt your thinking style to different situations."
  ]

  const BrainDominanceFallback := "Your brain dominance shows a unique combination of characteristics."

  function BrainDominanceDescription(dominance: string): (r: string)
    ensures r != ""
    ensures dominance in BrainDominanceDescriptions ==> r == BrainDominanceDescriptions[dominance]
    ensures r == BrainDominanceFallback <==> dominance !in BrainDominanceDescriptions
  {
    if dominance in BrainDominanceDescriptions then BrainDominanceDescriptions[dominance] else BrainDominanceFallback
  }

  const BrainDominanceTraitLists: map<string, seq<string>> := map[
    "Left Brain" := [
      "Logical and analytical thinking",
      "Detail-oriented",
      "Good with numbers and language",
      "Prefers structured, sequential learning",
      "Strong in mathematics and science"],
    "Right Brain" := [
      "Creative and intuitive thinking",
      "Big-picture oriented",
      "Good with patterns and spatial reasoning",
      "Prefers holistic, visual learning",
      "Strong in arts and creativity"],
    "Balanced" := [
      "Combination of logical and creative thinking",
      "Can adapt thinking style to situation",
      "Good at both details and big picture",
      "Flexible learning approach",
      "Strong in integrating different perspectives"]
  ]

  const BrainDominanceTraitsFallback := ["Unique combination of left and right brain traits"]

  /** Five traits for a known dominance, the single fallback trait otherwise. */
  function BrainDominanceTraits(dominance: string): (r: seq<string>)
    ensures |r| == if dominance in BrainDominanceTraitLists then 5 else 1
    ensures dominance !in BrainDominanceTraitLists ==> r == BrainDominanceTraitsFallback
    ensures forall i :: 0 <= i < |r| ==> r[i] != ""
  {
    if dominance in BrainDominanceTraitLists then BrainDominanceTraitLists[dominance] else BrainDominanceTraitsFallback
  }

  // ---------------------------------------------------------------------------
  // Multiple intelligences

  const MiDescriptions: map<string, string> := map[
    "Linguistic" := "You have a strong ability to use words effectively, both orally and in writing. You enjoy reading, writing, telling stories and playing word games.",
    "Logical-Mathematical" := "You have a strong ability to reason, calculate, and handle logical thinking. You enjoy working with numbers, experiments and solving problems.",
    "Spatial" := "You have a strong ability to perceive the visual-spatial world accurately. You enjoy maps, charts, pictures and visualizing information.",
    "Musical" := "You have a strong sensitivity to rhythm, melody and sound. You enjoy singing, playing instruments, composing music and recognizing tonal patterns.",
    "Bodily-Kinesthetic" := "You have a strong ability to control body movements and handle objects skillfully. You enjoy dancing, sports, crafts and hands-on activities.",
    "Interpersonal" := "You have a strong ability to understand and interact effectively with others. You enjoy leading, organizing, communicating and mediating conflicts.",
    "Intrapersonal" := "You have a strong ability to understand yourself and your own thoughts/feelings. You enjoy self-reflection, introspection and working independently.",
    "Naturalistic" := "You have a strong ability to recognize and classify plants, animals and natural phenomena. You enjoy nature, animals and observing ecological patterns."
  ]

  const MiFallback := "This intelligence represents a significant strength in your profile."

  function MiDescription(mi: string): (r: string)
    ensures r != ""
    ensures mi in MiDescriptions ==> r == MiDescriptions[mi]
    ensures r == MiFallback <==> mi !in MiDescriptions
  {
    if mi in MiDescriptions then MiDescriptions[mi] else MiFallback
  }

  /** The ranked intelligences are keyed "Logical", "Bodily" and "Naturalist" (and
      lower-case names by one analyser), while this table spells three of its keys
      "Logical-Mathematical", "Bodily-Kinesthetic" and "Naturalistic": those ranks
      always read the fallback text. */
  lemma MiDescriptionShortNames()
    ensures MiDescription("Logical") == MiFallback
    ensures MiDescription("Bodily") == MiFallback
    ensures MiDescription("Naturalist") == MiFallback
    ensures MiDescription("linguistic") == MiFallback
  {
  }
}

=== FILE: text.dfy ===
/** String helpers with the semantics of the PHP and Python built-ins they stand for. */
module Text {

  predicate IsUpper(c: char) {
    'A' <= c <= 'Z'
  }

  /** ASCII case mapping of one character (PHP 8 `strtolower`; Python `str.lower`
      on the ASCII labels used here). */
  function LowerChar(c: char): (r: char)
    ensures !IsUpper(r)
    ensures !IsUpper(c) ==> r == c
  {
    if IsUpper(c) then (c as int + 32) as char else c
  }

  function ToLower(s: string): (r: string)
    ensures |r| == |s|
    ensures forall i :: 0 <= i < |s| ==> r[i] == LowerChar(s[i])
  {
    seq(|s|, i requires 0 <= i < |s| => LowerChar(s[i]))
  }

  predicate NoUpper(s: string) {
    forall i :: 0 <= i < |s| ==> !IsUpper(s[i])
  }

  /** Lower-casing leaves text without capitals unchanged, and is idempotent. */
  lemma LowerFixed(s: string)
    requires NoUpper(s)
    ensures ToLower(s) == s
  {
  }

  lemma LowerIdempotent(s: string)
    ensures NoUpper(ToLower(s))
    ensures ToLower(ToLower(s)) == ToLower(s)
  {
  }

  lemma ToLowerAppend(a: string, b: string)
    ensures ToLower(a + b) == ToLower(a) + ToLower(b)
  {
  }

  /** PHP `implode(sep, parts)`: the parts with `sep` between neighbours. */
  function Implode(sep: string, parts: seq<string>): (r: string)
    ensures parts == [] ==> r == ""
    ensures |parts| == 1 ==> r == parts[0]
  {
    if parts == [] then ""
    else if |parts| == 1 then parts[0]
    else parts[0] + sep + Implode(sep, parts[1..])
  }

  lemma ImplodeTwo(sep: string, a: string, b: string)
    ensures Implode(sep, [a, b]) == a + sep + b
  {
    assert [a, b][1..] == [b];
  }

  predicate StartsWith(s: string, p: string) {
    |p| <= |s| && s[..|p|] == p
  }

  predicate EndsWith(s: string, p: string) {
    |p| <= |s| && s[|s| - |p|..] == p
  }

  predicate OccursAt(hay: string, needle: string, i: nat) {
    i + |needle| <= |hay| && hay[i..i + |needle|] == needle
  }

  /** Python `needle in hay` for strings: some window of `hay` spells `needle`. */
  ghost predicate Contains(hay: string, needle: string) {
    exists i: nat :: OccursAt(hay, needle, i)
  }

  /** A left-to-right search for `needle` in `hay`, starting at `from`. */
  function ContainsFrom(hay: string, needle: string, from: nat): (b: bool)
    ensures b <==> exists i: nat :: from <= i && OccursAt(hay, needle, i)
    decreases |hay| - from
  {
    if from + |needle| > |hay| then false
    else if OccursAt(hay, needle, from) then true
    else ContainsFrom(hay, needle, from + 1)
  }

  /** The search decides `Contains`. */
  function Substring(hay: string, needle: string): (b: bool)
    ensures b <==> Contains(hay, needle)
  {
    ContainsFrom(hay, needle, 0)
  }
}

=== FILE: wrappers.dfy ===
/** Failure-compatible optional value, used for decoded-but-possibly-null JSON fields
    and for Python operations that raise. */
module Wrappers {

  datatype Option<+T> = None | Some(value: T) {

    /** Returns the wrapped value, or `default` when there is none
        (PHP's `??` and Python's `dict.get(k, default)`). */
    function GetOr(default: T): (r: T)
      ensures Some? ==> r == value
      ensures None? ==> r == default
    {
      match this
      case Some(v) => v
      case None => default
    }
  }
}
